=== FILE: README.md ===
# Shadow-casting field of view, modelled in Dafny

This project models `evaluate` from `src/ShadowCasting2D.ts`, a 2D
field-of-view routine based on recursive shadow casting. The model covers
the free function and the `ShadowCasting2D` class that delegates to it.

The routine works as follows:
1. It applies the `onStart` hook to the initial state.
2. It emits the viewer's own cell through `onVisible`, at distance 0.
3. It scans one canonical octant per entry of the direction table.
4. It casts four straight rays, in the order +x, −x, +y, −y.
5. It applies `onEnd` and returns the resulting state.

Each octant is scanned in local coordinates (dx, dy), with dy ≤ dx ≤ −1. A
4-tuple (xx, xy, yx, yy) maps each local cell to the world. Recursion is
replaced by a stack of frames (row, start, finish), where start and finish
are slopes. A frame scans rows outward, restricted to its slope window. A
blocked run that starts in a row short of the radius pushes a frame for the
next row. That frame is bounded by the left slope of the occluding cell. The
caller's state is threaded through every hook call. The opacity oracle
`isBlocked` is always asked with the current state.

What the model does:
- **Modules.** They follow the routine's parts:
  - `Geometry`: the direction table;
  - `Metrics`: the distance functions;
  - `Slopes`: the slope arithmetic;
  - `Config`: the options and their defaults;
  - `Trace`: the record of hook and oracle calls;
  - `Scanner`: the octant stack scan;
  - `Rays`: the cardinal rays;
  - `ShadowCasting`: `evaluate`;
  - `Viewer`: the class.
- **Slopes.** They are exact `real` numbers. The incremental updates of the
  source are proved to equal the closed forms (dx − 0.5)/(dy + 0.5) and
  (dx + 0.5)/(dy − 0.5).
- **Hooks and oracle.** They are pure function values over a generic state
  `T`.
- **Trace.** Every method also returns a trace: the sequence of `onVisible`
  calls (`Visible`) and `isBlocked` queries (`Probe`), in call order. The
  contracts relate the returned state to the trace. The state is the initial
  state folded through `onVisible` over the trace (`Replay`). Every recorded
  oracle answer is the oracle applied to the state current at that query
  (`Consistent`).
- **Rays.** Their events are described by a small grammar, `RayFrom`. A ray
  emits cell i at distance i. If the cell is past the bound, the ray stops.
  Otherwise the ray queries the cell. It stops on a blocked answer and goes
  on to cell i + 1 on a clear one, up to ⌊radius⌋.

The source has some quirks, and the model keeps them as written:
- **The −y ray checks minX.** It stops on `y < minX`, a comparison with the x
  bound, where minY is evidently meant (src/ShadowCasting2D.ts:126).
  `Rays.PastBound` keeps this. `Rays.MinusYRayIgnoresMinY` gives a cell below
  minY that the −y ray does not stop at. Take minY = 0, minX = −10, an origin
  at y0 = 0, a clear oracle and a radius of at least 11. The ray then emits
  y = −1 … −11, eleven cells below minY, and stops only after emitting −11.
- **`onEnd` is called with the state only.** It is declared as taking
  (state, x, y) but called with the state alone, so it is modelled as
  `T -> T`.
- **`isBlocked` has a default, and it hides everything.** The options type
  declares `isBlocked` as required, but the code falls back to an oracle that
  always answers blocked (src/ShadowCasting2D.ts:42). The model follows the
  code. With that default every octant is occluded at once. Its first cell
  (−1, −1) is blocked, the frame pushed behind it has an empty window, and
  the octant emits nothing else. Each ray likewise stops at its first cell.
  `ShadowCasting.Evaluate` states all of this. With the default table as well,
  every emitted or queried cell is the viewer's own cell or one of its eight
  neighbours.
- **Rays test the bound after emitting, and only along their own axis.** The
  octant scan checks all four bounds before it emits a cell. A ray emits its
  cell first and then tests a single bound: the +x ray tests maxX, the −x ray
  minX, the +y ray maxY and the −y ray minX again. Cells outside the other
  bounds are emitted. A +x ray from an origin with y0 > maxY emits only
  out-of-bounds cells, up to the x bound or the radius.
- **Cells that are not visible are still queried.** The first branch of the
  cell test (src/ShadowCasting2D.ts:77-78) is empty. A cell outside the
  bounds, or past the window's near edge, is not emitted, but control falls
  through to the `isBlocked` query. Such a cell can therefore start or extend
  a blocked run, push a frame and move the window's near edge.
  `Scanner.VisitCell` keeps this: it queries every cell that does not break
  the row.
- **A radius of `Infinity` does not terminate.** Take an open field with the
  default bounds. The row loop `dy >= -radius` (src/ShadowCasting2D.ts:64)
  never ends, and neither do the rays (src/ShadowCasting2D.ts:108-127). The
  model's radius is a finite real, and its termination proof rests on that.

## Model

| member | source | states |
|---|---|---|
| Geometry.Directions8AreSymmetries | src/ShadowCasting2D.ts:12-21 | the default direction table has eight entries; each is a signed permutation matrix (entries in {−1, 0, 1}, one nonzero per row and column), and no two are equal |
| Geometry.Directions8Complete | src/ShadowCasting2D.ts:12-21 | every signed permutation matrix occurs in the default table, so the eight entries are all the symmetries of the square grid |
| Geometry.SignedPermutationKeepsMagnitudes | src/ShadowCasting2D.ts:72-73 | a table transform keeps the absolute values of the local offsets, possibly swapping them |
| Geometry.OctantCellIsOffAxis | src/ShadowCasting2D.ts:71-73 | a canonical-octant cell (dy ≤ dx ≤ −1) maps to a world offset with both coordinates non-zero, so the octant scan never reaches the axis cells that the rays cover |
| Geometry.OctantsCoverOffAxis | src/ShadowCasting2D.ts:12-21 | every off-axis world offset is the image of some canonical-octant cell under some entry of the default table |
| Metrics.MetricsAreNorms | src/ShadowCasting2D.ts:23-27 | Manhattan and Chebyshev distances are non-negative, zero only at the origin, and Chebyshev ≤ Manhattan ≤ 2·Chebyshev |
| Metrics.MetricsMonotonic | src/ShadowCasting2D.ts:23-27 | both integer metrics grow with the absolute value of each coordinate |
| Metrics.MetricsInvariantUnderSymmetry | src/ShadowCasting2D.ts:23-27 | measuring local (dx, dy) gives the same distance as measuring the transformed world offset |
| Metrics.SquaredLengthInvariantUnderSymmetry | src/ShadowCasting2D.ts:25-25 | the squared Euclidean length of an offset is the same in local octant coordinates and in the world, for every signed permutation |
| Metrics.EuclideanWithinRadius | src/ShadowCasting2D.ts:25-25 | for a square-root metric, `distance <= radius` holds exactly when dx² + dy² ≤ radius² |
| Slopes.HalfOffsetsNonZero | src/ShadowCasting2D.ts:65-66 | neither 1/(dy + 0.5) nor 1/(dy − 0.5) divides by zero |
| Slopes.RowStartClosedForm | src/ShadowCasting2D.ts:67-68 | the row's initial slopes are the closed-form slopes of the cell just before dx = dy |
| Slopes.SlopeStep | src/ShadowCasting2D.ts:74-75 | one increment moves each slope from cell dx − 1 to cell dx: after the increments, the slopes at cell dx are (dx − 0.5)/(dy + 0.5) and (dx + 0.5)/(dy − 0.5) |
| Slopes.SlopeOrder | src/ShadowCasting2D.ts:64-75 | within the octant, 0 < rightSlope < 1 and rightSlope < leftSlope |
| Slopes.SlopesDecreaseAlongRow | src/ShadowCasting2D.ts:71-80 | both slopes strictly decrease as dx grows, so once a cell is past the window's far edge every later cell of the row is too |
| Slopes.FirstCellOnly | src/ShadowCasting2D.ts:67-80 | within a row, the first cell dx = dy is exactly the cell whose left slope exceeds 1, so a window finishing at 1 or below never breaks at the row's first cell |
| Config.Resolve | src/ShadowCasting2D.ts:37-47 | each omitted option takes its default: an oracle that always answers blocked, unbounded bounds, the eight-entry table, the Euclidean metric, identity hooks; each given option is used unchanged |
| Config.ReachBound | src/ShadowCasting2D.ts:108-108 | for a positive integer n, n ≤ radius exactly when n ≤ ⌊radius⌋ (0 below radius 1) |
| Config.IntegerRadiusBoundsRow | src/ShadowCasting2D.ts:95-98 | for an integer radius, a pushed row −dy + 1 with −dy < radius is at most the radius |
| Trace.ConsistentAt | src/ShadowCasting2D.ts:89-95 | each recorded oracle answer equals the oracle applied to the state after exactly the events before it |
| Trace.ReplayConcat | src/ShadowCasting2D.ts:49-128 | threading the state through two consecutive parts of a scan equals threading it through the first and then the second |
| Trace.ConsistentConcat | src/ShadowCasting2D.ts:89-95 | oracle answers stay consistent when two consistent parts of a scan are joined |
| Trace.ReplayIdentity | src/ShadowCasting2D.ts:29-31 | with the default `onVisible`, which returns the state unchanged, the scan leaves the state unchanged |
| Trace.AlwaysBlockedTrace | src/ShadowCasting2D.ts:33-42 | under the default oracle, every recorded query is answered blocked |
| Trace.QueriesAreProbes | src/ShadowCasting2D.ts:89-95 | the queries picked out of a trace are exactly its oracle-query events |
| Trace.EmitsBeforeQueryConcat | src/ShadowCasting2D.ts:82-95 | two traces in which every emission is followed at once by the query about the same cell concatenate to one with the same property |
| Scanner.Advance | src/ShadowCasting2D.ts:88-102 | the blocked-run bookkeeping after one oracle answer: a run is entered only when the answer is blocked and −dy < radius, and left at the first clear answer; a frame (row −dy + 1, the current start, this cell's left slope) is pushed exactly when a run is entered; inside a run the reopening slope is the latest blocked cell's right slope; the window's start moves, to the reopening slope, only when a run ends |
| Scanner.EmitThenProbe | src/ShadowCasting2D.ts:82-95 | an admitted cell is emitted at its transformed location with its metric distance, and then exactly one oracle query is made about it, against the state after that emission |
| Scanner.VisitCell | src/ShadowCasting2D.ts:72-102 | one cell: the row ends exactly when the cell is in bounds, its right slope is inside the window and its left slope is below the finish; then nothing is emitted, queried or pushed. Otherwise the cell yields at most two events with the query last, preceded by one emission exactly when the cell is in bounds, inside the window and within the radius; the run state and push follow `Scanner.Advance` on the query's answer |
| Scanner.CellAppend | src/ShadowCasting2D.ts:71-102 | after one more cell, every event still belongs to the row, a pushed frame closes at the cell's left slope one row deeper, and entering a blocked run leaves a blocked answer last in the trace |
| Scanner.CellEmitsBeforeQuery | src/ShadowCasting2D.ts:82-95 | a visited cell's events, at most one emission and then its query, all about that cell, have the emission immediately before the query |
| Scanner.RowAppend | src/ShadowCasting2D.ts:64-104 | after one more row, the frame's events cover rows from the frame's row down to this one, each row adds at most ⌊radius⌋ pushes, and a row ending blocked ends the frame's trace blocked |
| Scanner.ScanRow | src/ShadowCasting2D.ts:64-104 | one row: its cells are queried one by one from dx = dy towards 0, each at most once, and a cell is emitted at most once, immediately before its query. The row stops before dx = 0 only at a cell that meets the break test, and every later cell of the row is past the window's far edge too. A window ending at slope 1 or below queries at least the first cell. Every event is a cell of that row at its transformed world location, in bounds and within the radius when emitted. Pushed frames are one row deeper and end at a left slope of this row. Short of the radius, the row ends inside a blocked run exactly when its last query was answered blocked. While every answer is blocked, the near edge stays put. While every answer is clear and the row starts outside a blocked run, nothing is pushed, the near edge stays put, and every cell before the stopping point that is in bounds, inside the window's near edge and within the radius is emitted |
| Scanner.RowStep | src/ShadowCasting2D.ts:71-103 | one pass of the row loop: either the cell meets the break test and nothing changes, or the row's invariants extend by that cell, including the all-clear emission clause |
| Scanner.ClearStep | src/ShadowCasting2D.ts:77-102 | while every answer is clear, one more cell leaves the run as it was and pushes nothing, and the cell is emitted if it is in bounds, its right slope is inside the window and it is within the radius |
| Scanner.BreakSkipsRest | src/ShadowCasting2D.ts:79-80 | once a cell's left slope is below the finish, so is the left slope of every later cell of the row, so the break skips no cell the window would admit |
| Scanner.LastAnswer | src/ShadowCasting2D.ts:88-102 | after a cell, the trace ends with that cell's query. The run is blocked only if that answer was blocked, and, short of the radius, exactly then |
| Scanner.ScanFrame | src/ShadowCasting2D.ts:57-105 | a frame with start < finish is dropped with no emission, query or push. Otherwise rows are scanned from the frame's row down to `depth`, which is at least the frame's row when the radius admits it and never past ⌊radius⌋. With a finish of at most 1, the first cell of every scanned row is queried. Short of the radius, the scan stops only after a row whose last query was answered blocked. Every push is strictly deeper, at most one row below `depth`, and at most ⌊radius⌋ + 1 with row − 1 < radius; with an integer radius, at most the radius. For a frame within the radius whose finish is at most 1, when every answer is blocked, the frame ends at its first row and every push starts at the frame's near edge. When every answer is clear, a window reaching down to slope 0 pushes nothing, and in every scanned row each cell in bounds, inside the near edge and within the radius is emitted. Every emission is followed at once by the query about the same cell |
| Scanner.FrameRow | src/ShadowCasting2D.ts:64-104 | one pass of the frame loop: scanning row −dy extends the frame's invariants by that row, including the all-blocked and all-clear clauses |
| Scanner.ClearRowStep | src/ShadowCasting2D.ts:64-104 | one more row with every answer clear keeps a window that reaches down to slope 0 open: every left slope is positive, so the row never breaks, pushes nothing and emits every admitted cell |
| Scanner.ScanOctant | src/ShadowCasting2D.ts:53-107 | the stack scan of one octant terminates (measure `Load`), threads the state through every emission, and answers every query against the current state. Every event has the octant-cell property. Below radius 1 it does nothing. The initial frame walks the diagonal, querying cell (−r, −r) of each row r up to `diagonal`; that reaches ⌊radius⌋ unless a query in its last row was answered blocked. When every answer is blocked, only the cell (−1, −1) is emitted or queried. When every answer is clear, every cell of rows 1 .. ⌊radius⌋ that is in bounds and within the radius is emitted. Every emission is followed at once by the query about the same cell |
| Scanner.OctantRowsEmitted | src/ShadowCasting2D.ts:54-84 | with the initial window (near edge 1), emitting the admitted cells of rows 1 .. ⌊radius⌋ emits every cell in bounds and within the radius, because a cell's right slope is always below 1 |
| Scanner.OccludedWindows | src/ShadowCasting2D.ts:95-101 | a frame pushed from the first row with near edge 1 ends at the left slope 3 of cell (−1, −1), so its window is empty and it is dropped when popped |
| Scanner.BudgetAntitone | src/ShadowCasting2D.ts:95-101 | a deeper frame never has a larger pop budget |
| Scanner.LoadConcat | src/ShadowCasting2D.ts:54-60 | the stack measure of a concatenation is the sum of the two measures |
| Scanner.LoadAtMost | src/ShadowCasting2D.ts:95-101 | frames no shallower than a row weigh at most that row's budget each |
| Scanner.PopDecreases | src/ShadowCasting2D.ts:56-101 | replacing a popped frame by the frames it pushes strictly lowers the stack measure |
| Rays.MinusYRayIgnoresMinY | src/ShadowCasting2D.ts:123-127 | with minY = 0 and minX = −10 the cell (0, −1) is outside the bounds, yet the −y ray does not stop there |
| Rays.RayStep | src/ShadowCasting2D.ts:109-111 | one ray step emits the cell at distance i and then either finds it past the bound, with no query, or queries it; the ray stops exactly on past-bound or blocked |
| Rays.CastRayFrom | src/ShadowCasting2D.ts:108-112 | the ray from cell i on produces exactly the events of the ray grammar, with the state threaded and every query consistent |
| Rays.CastRay | src/ShadowCasting2D.ts:108-127 | a whole ray follows the ray grammar from distance 1, every event is on that ray, and it has at most 2·⌊radius⌋ events |
| Rays.PassThen | src/ShadowCasting2D.ts:108-112 | a clear, in-bound step at cell n followed by the ray from cell n + 1 is the ray from cell n |
| Rays.RayFromAt | src/ShadowCasting2D.ts:108-112 | in a ray, the m-th cell is emitted at index 2m with distance m + 1 ≤ ⌊radius⌋; it is queried at index 2m + 1 exactly when it is within the bound; every cell followed by another one was answered clear |
| Rays.RayFromOnAxis | src/ShadowCasting2D.ts:108-127 | every event of a ray is tagged with that ray's axis |
| Rays.BlockedRayIsOneCell | src/ShadowCasting2D.ts:111-111 | if every query on a ray is answered blocked, the ray emits only its first cell |
| Rays.RayFromOffOrigin | src/ShadowCasting2D.ts:108-127 | every ray cell from distance 1 on shares exactly one coordinate with the viewer |
| ShadowCasting.ScanOctants | src/ShadowCasting2D.ts:53-107 | the octants are scanned in table order, every event is an octant-cell event of its direction, and below radius 1 nothing is scanned. From radius 1 on, each octant queries its first cell (−1, −1). When every answer is blocked, every event is at that cell. When every answer is clear, every octant emits each of its cells in bounds and within the radius. Every emission is followed at once by the query about the same cell |
| ShadowCasting.CastRays | src/ShadowCasting2D.ts:108-127 | the rays are cast in the order +x, −x, +y, −y, and the events of each axis form exactly one ray of the grammar |
| ShadowCasting.OnAxisConcat | src/ShadowCasting2D.ts:108-127 | picking one ray's events out of a concatenation picks them out of each part |
| ShadowCasting.OnAxisPartition | src/ShadowCasting2D.ts:108-127 | the ray events split exactly into the four rays' events |
| ShadowCasting.Assemble | src/ShadowCasting2D.ts:49-127 | the origin, then the octants, then the rays make a phase-ordered trace. Only its first event comes from the origin step, its octant events keep the octant-cell property, and each axis picks out of it exactly the ray that axis cast |
| ShadowCasting.AssembleCoverage | src/ShadowCasting2D.ts:49-127 | the octants' first-cell queries, and their occlusion when every answer is blocked, survive putting the origin in front and the rays behind |
| ShadowCasting.EvaluateWith | src/ShadowCasting2D.ts:49-129 | `onStart` runs first on the initial state. The origin event comes first at distance 0, and no later event comes from the origin step. Octant events come next in table order, each an octant-cell event of its direction. Then come the rays in casting order, each axis's events forming one ray of the grammar. Ray cells lie on an axis through the viewer but never at it. The result is `onEnd` of the threaded state, and every query is consistent. From radius 1 on, every octant queries its first cell; below radius 1 only the origin is emitted. When every answer is blocked, each octant event is at its cell (−1, −1). When every answer is clear, every octant emits each of its cells in bounds and within the radius |
| ShadowCasting.Evaluate | src/ShadowCasting2D.ts:39-130 | everything `ShadowCasting.EvaluateWith` states, under the resolved defaults. With no hooks the initial state comes back unchanged. With the default oracle every query is answered blocked, each ray emits at most its first cell, and each octant stops at its cell (−1, −1). With the default table the trace is ordered over eight octants, octant cells are off both axes through the viewer, and no event after the first is at the viewer's cell. With both defaults every event is within the viewer's 3 × 3 block. With the default table and the default Euclidean metric, when every answer is clear, every cell off both axes through the viewer that is in bounds and inside the disc dx² + dy² ≤ radius² is seen. The `euclidean` argument must be a square root at every cell, as the default metric is |
| ShadowCasting.DefaultTableOffOrigin | src/ShadowCasting2D.ts:12-21 | under the default table, octant cells lie off both axes through the viewer, so no event after the origin event is at the viewer's cell |
| ShadowCasting.OccludedNeighbourhood | src/ShadowCasting2D.ts:42-127 | a trace meeting three conditions lies within the viewer's 3 × 3 block: its octants, scanned through signed permutations, stop at cell (−1, −1); its rays stop at their first cell; its origin event is at the viewer |
| ShadowCasting.OpenDisc | src/ShadowCasting2D.ts:12-25 | with the default table and a Euclidean metric, octants that emit every cell in bounds and within the radius see every in-bounds cell off both axes through the viewer inside the disc of the radius: some octant reaches the cell from a canonical cell at the same distance |
| ShadowCasting.DiscCellSeen | src/ShadowCasting2D.ts:77-84 | a canonical cell whose world image is in bounds and inside the disc is emitted by its octant: its Euclidean distance is within the radius and its row within ⌊radius⌋ |
| ShadowCasting.DiscRowWithinReach | src/ShadowCasting2D.ts:64-64 | a canonical cell inside the disc lies in a row the row loop reaches: −dy ≤ ⌊radius⌋ |
| Viewer.ShadowCasting2D.Evaluate | src/ShadowCasting2D.ts:132-140 | the class method evaluates with the options it holds. Given a metric that is a square root at every cell, standing in for the default, it promises exactly what the free function `ShadowCasting.Evaluate` promises for those options |

## Left out

- Floating point: slopes, distances and the radius are exact reals. Rounding in `1/(dy ± 0.5)` and in the accumulated slope increments is not modelled, so borderline slope comparisons may differ from IEEE arithmetic.
- The Euclidean default metric needs a square root. It is a function parameter `euclidean`. `ShadowCasting.Evaluate` and the class method require it to be a square root at every cell (`Metrics.IsEuclideanAt`). The rounding of `**0.5` is not modelled.
- `thisArg` and the `.call` receiver binding carry no meaning for pure hooks, so they are dropped.
- Infinite default bounds are the `Open` edge of `Config.Edge`. A radius of `Infinity` is not modelled: the radius is a finite real. With an infinite radius the source does not terminate in an open field (see above).
- Non-integer inputs are not modelled. The origin, the bounds and the direction-table entries are integers. Fractional bounds select the same integer cells as their rounding inward.
- NaN inputs are not modelled.
- Hooks and the oracle are pure functions of (state, cell[, distance]). Side effects of caller code are not modelled.
- Shadow correctness is not proved. No contract says that an emitted cell lies outside the shadow of every occluder, or which cells are emitted when some answers are blocked and some are clear. The outcomes proved are the two extremes. When every answer is blocked, each octant stops at its first cell. When every answer is clear, each octant emits every cell in bounds and within the radius; with the default table and metric, that is the whole disc off the axes.
- Scanner.ScanFrame: states the finish slope of each pushed frame (the left slope of a cell in the row above). Its start slope is stated only when every answer is blocked. `Scanner.Advance` states the start slope for a single push.
- Scanner.ScanFrame: states that the scan stops only after a row ending blocked, but not the converse for each earlier row. The converse is the loop guard `!blocked`.
- Scanner.ScanOctant: states termination and the per-event properties, not the order of frames on the stack.
- Scanner.ScanOctant: coverage is stated for the initial frame's diagonal, and for the whole octant only when every answer is blocked or every answer is clear. With mixed answers, no contract says which cells the frames pushed later emit or query, nor how many events the octant yields in all.
- ShadowCasting.Evaluate: the open-field clause covers the cells off both axes. The axis cells are described by the ray grammar of `ShadowCasting.Evaluated`, not restated as part of the disc.

=== FILE: config.dfy ===
/**
 Scan configuration: the caller's options bag with its optional fields, and
 the resolved configuration the scanner runs with once defaults are filled in.

 Hooks and the opacity oracle are pure functions of the folded state and the
 cell; the receiver binding of the source (`thisArg`) carries no meaning here.
 */
module Config {
  import opened Geometry

  datatype Option<X> = None | Some(value: X)

  /** One side of the bounding box; `Open` stands for the infinite default side. */
  datatype Edge = Open | At(v: int)

  datatype Bounds = Bounds(minX: Edge, minY: Edge, maxX: Edge, maxY: Edge)

  /** The default bounds, unbounded on every side. */
  const Unbounded: Bounds := Bounds(Open, Open, Open, Open)

  predicate AtLeast(v: int, e: Edge) { e.Open? || v >= e.v }

  predicate AtMost(v: int, e: Edge) { e.Open? || v <= e.v }

  /** The admission test of the octant scan: minX <= x <= maxX and minY <= y <= maxY. */
  predicate InBounds(b: Bounds, x: int, y: int)
  {
    AtLeast(x, b.minX) && AtLeast(y, b.minY) && AtMost(x, b.maxX) && AtMost(y, b.maxY)
  }

  /** The options a caller passes; every field may be omitted. */
  datatype Params<!T> = Params(
    isBlocked: Option<(T, int, int) -> bool>,
    bounds: Option<Bounds>,
    directions: Option<seq<Transform>>,
    getDistance: Option<(int, int) -> real>,
    onStart: Option<(T, int, int) -> T>,
    onVisible: Option<(T, int, int, real) -> T>,
    // Declared in the source as taking (state, x, y), but only ever called
    // with the state; modelled as it is called.
    onEnd: Option<T -> T>
  )

  /** The configuration the scan runs with: every strategy present. */
  datatype Config<!T> = Config(
    isBlocked: (T, int, int) -> bool,
    bounds: Bounds,
    directions: seq<Transform>,
    getDistance: (int, int) -> real,
    onStart: (T, int, int) -> T,
    onVisible: (T, int, int, real) -> T,
    onEnd: T -> T
  )

  /** Fills in the defaults: an always-blocked oracle, no bounds, the eight
      canonical directions, the Euclidean metric (supplied by the caller of
      this model, since it needs a square root) and identity hooks.
      A given option is used as it is.
      The default oracle makes every cell opaque: each octant stops at its
      first cell (-1, -1) and each ray at its first cell, so an evaluation
      without `isBlocked` sees only the viewer's neighbours. */
  function Resolve<T(!new)>(p: Params<T>, euclidean: (int, int) -> real): (c: Config<T>)
    ensures p.isBlocked.None? ==> forall s, x, y :: c.isBlocked(s, x, y)
    ensures p.isBlocked.Some? ==> c.isBlocked == p.isBlocked.value
    ensures p.bounds.None? ==> forall x, y :: InBounds(c.bounds, x, y)
    ensures p.bounds.Some? ==> c.bounds == p.bounds.value
    ensures p.directions.None? ==> c.directions == Directions8
    ensures p.directions.Some? ==> c.directions == p.directions.value
    ensures p.getDistance.None? ==> forall dx, dy :: c.getDistance(dx, dy) == euclidean(dx, dy)
    ensures p.getDistance.Some? ==> c.getDistance == p.getDistance.value
    ensures p.onStart.None? ==> forall s, x, y :: c.onStart(s, x, y) == s
    ensures p.onStart.Some? ==> c.onStart == p.onStart.value
    ensures p.onVisible.None? ==> forall s, x, y, d :: c.onVisible(s, x, y, d) == s
    ensures p.onVisible.Some? ==> c.onVisible == p.onVisible.value
    ensures p.onEnd.None? ==> forall s :: c.onEnd(s) == s
    ensures p.onEnd.Some? ==> c.onEnd == p.onEnd.value
  {
    Config(
      if p.isBlocked.Some? then p.isBlocked.value else (s: T, x: int, y: int) => true,
      if p.bounds.Some? then p.bounds.value else Unbounded,
      if p.directions.Some? then p.directions.value else Directions8,
      if p.getDistance.Some? then p.getDistance.value else euclidean,
      if p.onStart.Some? then p.onStart.value else (s: T, x: int, y: int) => s,
      if p.onVisible.Some? then p.onVisible.value else (s: T, x: int, y: int, d: real) => s,
      if p.onEnd.Some? then p.onEnd.value else (s: T) => s
    )
  }

  /** The deepest octant row, and the longest cardinal ray, a radius admits. */
  function Reach(radius: real): nat
  {
    if radius < 1.0 then 0 else radius.Floor
  }

  /** For a positive integer n, n <= radius exactly when n <= Reach(radius). */
  lemma ReachBound(n: int, radius: real)
    requires n >= 1
    ensures n as real <= radius <==> n <= Reach(radius)
  {
  }

  /** For an integer radius, a row strictly less than the radius plus one is at most the radius:
      the frames the scanner pushes, at rows n with n - 1 < radius, never pass the radius. */
  lemma IntegerRadiusBoundsRow(n: int, radius: real)
    requires radius == radius.Floor as real
    requires (n - 1) as real < radius
    ensures n as real <= radius
  {
    var r := radius.Floor;
    assert (n - 1) as real < r as real;
    assert n - 1 < r;
    assert n as real <= r as real;
  }
}

=== FILE: evaluate.dfy ===
/**
 The whole field-of-view evaluation: start hook, the origin, the octant scans
 in the order of the direction table, the four cardinal rays, end hook.

 The result is the state the hooks thread through the scan; the trace is the
 scan's observable record (see module Trace), returned alongside it so the
 contracts can say what the hooks and the oracle were called with, and in
 which order.
 */
module ShadowCasting {
  import opened Geometry
  import opened Config
  import opened Trace
  import opened Scanner
  import opened Rays
  import opened Metrics

  /** The rays in the order they are cast: +x, -x, +y, -y. */
  const Axes: seq<Axis> := [PlusX, MinusX, PlusY, MinusY]

  function AxisRank(a: Axis): nat
  {
    match a
    case PlusX => 0
    case MinusX => 1
    case PlusY => 2
    case MinusY => 3
  }

  /** `Axes` lists each ray at its rank, so every ray is cast exactly once. */
  lemma AxesInOrder()
    ensures |Axes| == 4
    ensures forall i :: 0 <= i < |Axes| ==> AxisRank(Axes[i]) == i
    ensures forall a: Axis :: Axes[AxisRank(a)] == a
  {
  }

  /** The phase of the evaluation an event belongs to, with `nd` directions:
      the origin first, then octant k, then the rays in casting order. */
  function Phase(e: Event, nd: nat): nat
  {
    match e.via
    case AtOrigin => 0
    case InOctant(k, _, _) => 1 + k
    case OnRay(a) => 1 + nd + AxisRank(a)
  }

  /** The events of `trace` appear phase by phase. */
  predicate Ordered(trace: seq<Event>, nd: nat)
  {
    forall i, j :: 0 <= i < j < |trace| ==> Phase(trace[i], nd) <= Phase(trace[j], nd)
  }

  /** Appending a block of events that all belong to one phase, no earlier than any phase so far. */
  lemma OrderedAppend(a: seq<Event>, b: seq<Event>, nd: nat, p: nat)
    requires Ordered(a, nd)
    requires forall e <- a :: Phase(e, nd) <= p
    requires forall e <- b :: Phase(e, nd) == p
    ensures Ordered(a + b, nd)
  {
    var t := a + b;
    forall i, j | 0 <= i < j < |t|
      ensures Phase(t[i], nd) <= Phase(t[j], nd)
    {
      if j < |a| {
        assert t[i] == a[i] && t[j] == a[j];
      } else if i < |a| {
        assert t[i] == a[i] && t[j] == b[j - |a|];
        assert a[i] in a && b[j - |a|] in b;
      } else {
        assert t[i] == b[i - |a|] && t[j] == b[j - |a|];
        assert b[i - |a|] in b && b[j - |a|] in b;
      }
    }
  }

  /** The events of `trace` that come from the ray along `axis`, in order. */
  function OnAxis(trace: seq<Event>, axis: Axis): seq<Event>
  {
    if trace == [] then []
    else (if trace[0].via == OnRay(axis) then [trace[0]] else []) + OnAxis(trace[1..], axis)
  }

  lemma {:induction false} OnAxisSubset(trace: seq<Event>, axis: Axis)
    ensures forall e <- OnAxis(trace, axis) :: e in trace && e.via == OnRay(axis)
    decreases |trace|
  {
    if trace != [] {
      OnAxisSubset(trace[1..], axis);
    }
  }

  lemma {:induction false} OnAxisConcat(a: seq<Event>, b: seq<Event>, axis: Axis)
    ensures OnAxis(a + b, axis) == OnAxis(a, axis) + OnAxis(b, axis)
    decreases |a|
  {
    if a != [] {
      assert (a + b)[1..] == a[1..] + b;
      OnAxisConcat(a[1..], b, axis);
    } else {
      assert a + b == b;
    }
  }

  /** Filtering for an axis keeps a block that comes wholly from it, and drops one that does not. */
  lemma {:induction false} OnAxisBlock(trace: seq<Event>, axis: Axis, via: Via)
    requires forall e <- trace :: e.via == via
    ensures via == OnRay(axis) ==> OnAxis(trace, axis) == trace
    ensures via != OnRay(axis) ==> OnAxis(trace, axis) == []
    decreases |trace|
  {
    if trace != [] {
      assert trace[0] in trace;
      OnAxisBlock(trace[1..], axis, via);
      assert trace == [trace[0]] + trace[1..];
    }
  }

  /** Every event of the ray along `axis` is picked out by `OnAxis`. */
  lemma {:induction false} OnAxisKeeps(trace: seq<Event>, axis: Axis)
    ensures forall e <- trace :: e.via == OnRay(axis) ==> e in OnAxis(trace, axis)
    decreases |trace|
  {
    if trace != [] {
      OnAxisKeeps(trace[1..], axis);
      assert trace == [trace[0]] + trace[1..];
    }
  }

  lemma OnAxisNone(trace: seq<Event>, axis: Axis)
    requires forall e <- trace :: !e.via.OnRay?
    ensures OnAxis(trace, axis) == []
  {
    if trace != [] {
      assert trace[0] in trace;
      OnAxisNone(trace[1..], axis);
    }
  }

  /** The octant scans, one per entry of the direction table, in table order. */
  method ScanOctants<T>(cfg: Config<T>, x0: int, y0: int, radius: real, s0: T) returns (s: T, trace: seq<Event>)
    ensures s == Replay(cfg.onVisible, s0, trace)
    ensures Consistent(cfg.isBlocked, cfg.onVisible, s0, trace)
    // every emission is followed at once by the query about the same cell
    ensures EmitsBeforeQuery(trace)
    ensures forall e <- trace :: FromOctant(cfg, x0, y0, radius, e)
    ensures Ordered(trace, |cfg.directions|)
    ensures radius < 1.0 ==> trace == []
    // from radius 1 on, every octant queries at least its first cell (-1, -1)
    ensures radius >= 1.0 ==> forall k :: 0 <= k < |cfg.directions| ==> RowProbed(trace, k, 1)
    // when every answer is blocked, each octant stops at its first cell
    ensures AnsweredBlocked(trace) ==> forall e <- trace :: e.via.InOctant? && e.via.dx == -1 && e.via.dy == -1
    // when every answer is clear, every octant emits each of its cells in bounds and within the radius
    ensures AnsweredClear(trace) ==> forall k :: 0 <= k < |cfg.directions| ==> OctantEmitted(cfg, k, x0, y0, radius, trace)
  {
    var nd := |cfg.directions|;
    s, trace := s0, [];
    var k := 0;
    while k < nd
      invariant k <= nd
      invariant s == Replay(cfg.onVisible, s0, trace)
      invariant Consistent(cfg.isBlocked, cfg.onVisible, s0, trace)
      invariant EmitsBeforeQuery(trace)
      invariant forall e <- trace :: FromOctant(cfg, x0, y0, radius, e) && e.via.k < k
      invariant Ordered(trace, nd)
      invariant radius < 1.0 ==> trace == []
      invariant radius >= 1.0 ==> forall j :: 0 <= j < k ==> RowProbed(trace, j, 1)
      invariant AnsweredBlocked(trace) ==> forall e <- trace :: e.via.InOctant? && e.via.dx == -1 && e.via.dy == -1
      invariant AnsweredClear(trace) ==> forall j :: 0 <= j < k ==> OctantEmitted(cfg, j, x0, y0, radius, trace)
    {
      var s1, octant, _ := ScanOctant(cfg, k, x0, y0, radius, s);
      EmitsBeforeQueryConcat(trace, octant);
      ReplayConcat(cfg.onVisible, s0, trace, octant);
      ConsistentConcat(cfg.isBlocked, cfg.onVisible, s0, trace, octant);
      OrderedAppend(trace, octant, nd, 1 + k);
      if radius >= 1.0 {
        OctantsProbedAppend(trace, octant, k);
      }
      if AnsweredBlocked(trace + octant) {
        assert AnsweredBlocked(trace) && AnsweredBlocked(octant);
      }
      if AnsweredClear(trace + octant) {
        assert AnsweredClear(trace) && AnsweredClear(octant);
        forall j | 0 <= j <= k
          ensures OctantEmitted(cfg, j, x0, y0, radius, trace + octant)
        {
          OctantEmittedConcat(cfg, j, x0, y0, radius, trace, octant);
        }
      }
      s, trace, k := s1, trace + octant, k + 1;
    }
  }

  /** Appending octant k's scan, which queries its first cell, extends the
      octants 0 .. k - 1 whose first cell was queried. */
  lemma OctantsProbedAppend(trace: seq<Event>, octant: seq<Event>, k: nat)
    requires forall j :: 0 <= j < k ==> RowProbed(trace, j, 1)
    requires RowProbed(octant, k, 1)
    ensures forall j :: 0 <= j <= k ==> RowProbed(trace + octant, j, 1)
  {
    forall j | 0 <= j <= k
      ensures RowProbed(trace + octant, j, 1)
    {
      RowProbedConcat(trace, octant, j, 1);
    }
  }

  /** `trace` holds exactly the first n rays, in casting order: each of them
      as the ray grammar says, and nothing of the later ones. */
  predicate RaysUpTo(b: Bounds, x0: int, y0: int, reach: nat, nd: nat, trace: seq<Event>, n: nat)
  {
    && (forall e <- trace :: e.via.OnRay? && AxisRank(e.via.axis) < n)
    && Ordered(trace, nd)
    && (forall a: Axis :: AxisRank(a) < n ==> RayFrom(b, a, x0, y0, reach, OnAxis(trace, a), 1))
    && (forall a: Axis :: AxisRank(a) >= n ==> OnAxis(trace, a) == [])
  }

  /** The four cardinal rays, cast one after another in the order of `Axes`. */
  method CastRays<T>(cfg: Config<T>, x0: int, y0: int, radius: real, s0: T) returns (s: T, trace: seq<Event>)
    ensures s == Replay(cfg.onVisible, s0, trace)
    ensures Consistent(cfg.isBlocked, cfg.onVisible, s0, trace)
    ensures forall e <- trace :: e.via.OnRay?
    ensures forall e <- trace :: (e.x == x0) != (e.y == y0)
    ensures Ordered(trace, |cfg.directions|)
    ensures forall a: Axis :: RayFrom(cfg.bounds, a, x0, y0, Reach(radius), OnAxis(trace, a), 1)
  {
    var nd := |cfg.directions|;
    s, trace := s0, [];
    var i := 0;
    while i < |Axes|
      invariant i <= |Axes|
      invariant s == Replay(cfg.onVisible, s0, trace)
      invariant Consistent(cfg.isBlocked, cfg.onVisible, s0, trace)
      invariant RaysUpTo(cfg.bounds, x0, y0, Reach(radius), nd, trace, i)
      invariant forall e <- trace :: (e.x == x0) != (e.y == y0)
    {
      var axis := Axes[i];
      AxesInOrder();
      assert AxisRank(axis) == i;
      var s1, ray := CastRay(cfg, axis, x0, y0, radius, s);
      ReplayConcat(cfg.onVisible, s0, trace, ray);
      ConsistentConcat(cfg.isBlocked, cfg.onVisible, s0, trace, ray);
      RaysAppend(cfg.bounds, x0, y0, Reach(radius), nd, trace, ray, axis);
      s, trace, i := s1, trace + ray, i + 1;
    }
  }

  /** Appending the ray along `axis` to the rays cast before it, in casting order. */
  lemma RaysAppend(b: Bounds, x0: int, y0: int, reach: nat, nd: nat, trace: seq<Event>, ray: seq<Event>, axis: Axis)
    requires RaysUpTo(b, x0, y0, reach, nd, trace, AxisRank(axis))
    requires RayFrom(b, axis, x0, y0, reach, ray, 1)
    requires forall e <- ray :: e.via == OnRay(axis)
    ensures RaysUpTo(b, x0, y0, reach, nd, trace + ray, AxisRank(axis) + 1)
  {
    OrderedAppend(trace, ray, nd, 1 + nd + AxisRank(axis));
    forall a: Axis
      ensures AxisRank(a) <= AxisRank(axis) ==> RayFrom(b, a, x0, y0, reach, OnAxis(trace + ray, a), 1)
      ensures AxisRank(a) > AxisRank(axis) ==> OnAxis(trace + ray, a) == []
    {
      OnAxisConcat(trace, ray, a);
      OnAxisBlock(ray, a, OnRay(axis));
      if a == axis {
        assert OnAxis(trace + ray, a) == ray;
      } else {
        assert OnAxis(trace + ray, a) == OnAxis(trace, a);
      }
    }
  }

  /** The origin event: the viewer's own cell, visible at distance 0. */
  function Origin(x0: int, y0: int): Event
  {
    Visible(x0, y0, 0.0, AtOrigin)
  }

  /** What an evaluation under the resolved configuration `cfg` promises about
      its result and its trace. */
  ghost predicate Evaluated<T>(cfg: Config<T>, initialState: T, x0: int, y0: int, radius: real,
                               result: T, trace: seq<Event>)
  {
    var s := cfg.onStart(initialState, x0, y0);
    // the start hook runs first, on the initial state; the end hook last, on
    // the state every visibility call in the trace has threaded
    && result == cfg.onEnd(Replay(cfg.onVisible, s, trace))
    && Consistent(cfg.isBlocked, cfg.onVisible, s, trace)
    // the origin event comes first, and no later event comes from it
    && |trace| >= 1 && trace[0] == Origin(x0, y0)
    && (forall i :: 1 <= i < |trace| ==> !trace[i].via.AtOrigin?)
    // then the octants in table order, then the rays in casting order
    && Ordered(trace, |cfg.directions|)
    && (forall e <- trace :: e.via.InOctant? ==> FromOctant(cfg, x0, y0, radius, e))
    && (forall a: Axis :: RayFrom(cfg.bounds, a, x0, y0, Reach(radius), OnAxis(trace, a), 1))
    // ray cells lie on an axis through the origin, never on the origin itself
    && (forall e <- trace :: e.via.OnRay? ==> (e.x == x0) != (e.y == y0))
    // from radius 1 on every octant queries its first cell; below it the origin is all there is
    && (radius >= 1.0 ==> forall k :: 0 <= k < |cfg.directions| ==> RowProbed(trace, k, 1))
    && (radius < 1.0 ==> trace == [Origin(x0, y0)])
    // if every answer was blocked, each octant stopped at its first cell
    && (AnsweredBlocked(trace) ==> forall e <- trace :: e.via.InOctant? ==> e.via.dx == -1 && e.via.dy == -1)
    // if every answer was clear, each octant emitted every cell in bounds and within the radius
    && (AnsweredClear(trace) ==> forall k :: 0 <= k < |cfg.directions| ==> OctantEmitted(cfg, k, x0, y0, radius, trace))
  }

  /** The evaluation with every option resolved. */
  method EvaluateWith<T>(cfg: Config<T>, initialState: T, x0: int, y0: int, radius: real)
    returns (result: T, trace: seq<Event>)
    ensures Evaluated(cfg, initialState, x0, y0, radius, result, trace)
  {
    var s := cfg.onStart(initialState, x0, y0);
    var origin := Origin(x0, y0);
    var s1 := cfg.onVisible(s, x0, y0, 0.0);
    ReplaySnoc(cfg.onVisible, s, [], origin);
    ConsistentSnoc(cfg.isBlocked, cfg.onVisible, s, [], origin);
    var s2, octants := ScanOctants(cfg, x0, y0, radius, s1);
    var s3, rays := CastRays(cfg, x0, y0, radius, s2);
    trace := [origin] + octants + rays;
    ReplayConcat(cfg.onVisible, s, [origin], octants);
    ConsistentConcat(cfg.isBlocked, cfg.onVisible, s, [origin], octants);
    ReplayConcat(cfg.onVisible, s, [origin] + octants, rays);
    ConsistentConcat(cfg.isBlocked, cfg.onVisible, s, [origin] + octants, rays);
    Assemble(cfg, x0, y0, radius, octants, rays);
    AssembleCoverage(cfg, x0, y0, radius, octants, rays);
    result := cfg.onEnd(s3);
  }

  /** The octants' first-cell queries and their occlusion survive putting the
      origin in front and the rays behind. */
  lemma AssembleCoverage<T>(cfg: Config<T>, x0: int, y0: int, radius: real, octants: seq<Event>, rays: seq<Event>)
    requires radius >= 1.0 ==> forall k :: 0 <= k < |cfg.directions| ==> RowProbed(octants, k, 1)
    requires AnsweredBlocked(octants) ==> forall e <- octants :: e.via.InOctant? && e.via.dx == -1 && e.via.dy == -1
    requires AnsweredClear(octants) ==> forall k :: 0 <= k < |cfg.directions| ==> OctantEmitted(cfg, k, x0, y0, radius, octants)
    requires forall e <- rays :: e.via.OnRay?
    ensures var trace := [Origin(x0, y0)] + octants + rays;
            radius >= 1.0 ==> forall k :: 0 <= k < |cfg.directions| ==> RowProbed(trace, k, 1)
    ensures var trace := [Origin(x0, y0)] + octants + rays;
            AnsweredBlocked(trace) ==> forall e <- trace :: e.via.InOctant? ==> e.via.dx == -1 && e.via.dy == -1
    ensures var trace := [Origin(x0, y0)] + octants + rays;
            AnsweredClear(trace) ==> forall k :: 0 <= k < |cfg.directions| ==> OctantEmitted(cfg, k, x0, y0, radius, trace)
  {
    var nd := |cfg.directions|;
    var origin := Origin(x0, y0);
    var trace := [origin] + octants + rays;
    if AnsweredClear(trace) {
      assert AnsweredClear(octants);
      forall k | 0 <= k < nd
        ensures OctantEmitted(cfg, k, x0, y0, radius, trace)
      {
        OctantEmittedConcat(cfg, k, x0, y0, radius, [origin], octants);
        OctantEmittedConcat(cfg, k, x0, y0, radius, [origin] + octants, rays);
      }
    }
    forall k | 0 <= k < nd
      ensures radius >= 1.0 ==> RowProbed(trace, k, 1)
    {
      RowProbedConcat([origin], octants, k, 1);
      RowProbedConcat([origin] + octants, rays, k, 1);
    }
    if AnsweredBlocked(trace) {
      assert AnsweredBlocked(octants);
      forall e | e in trace && e.via.InOctant?
        ensures e.via.dx == -1 && e.via.dy == -1
      {
        assert e in octants;
      }
    }
  }

  /** The shape of the whole trace follows from the shapes of its three parts. */
  lemma Assemble<T>(cfg: Config<T>, x0: int, y0: int, radius: real, octants: seq<Event>, rays: seq<Event>)
    requires forall e <- octants :: FromOctant(cfg, x0, y0, radius, e)
    requires Ordered(octants, |cfg.directions|)
    requires radius < 1.0 ==> octants == []
    requires forall e <- rays :: e.via.OnRay? && (e.x == x0) != (e.y == y0)
    requires Ordered(rays, |cfg.directions|)
    requires forall a: Axis :: RayFrom(cfg.bounds, a, x0, y0, Reach(radius), OnAxis(rays, a), 1)
    ensures var trace := [Origin(x0, y0)] + octants + rays;
            forall e <- trace :: e.via.OnRay? ==> (e.x == x0) != (e.y == y0)
    ensures var trace := [Origin(x0, y0)] + octants + rays;
            && (forall i :: 1 <= i < |trace| ==> !trace[i].via.AtOrigin?)
            && Ordered(trace, |cfg.directions|)
            && (forall e <- trace :: e.via.InOctant? ==> FromOctant(cfg, x0, y0, radius, e))
            && (forall a: Axis :: RayFrom(cfg.bounds, a, x0, y0, Reach(radius), OnAxis(trace, a), 1))
            && (radius < 1.0 ==> trace == [Origin(x0, y0)])
  {
    var nd := |cfg.directions|;
    var origin := Origin(x0, y0);
    var trace := [origin] + octants + rays;
    OrderedOctantsAfterOrigin(origin, octants, nd);
    OrderedRaysLast([origin] + octants, rays, nd);
    forall i | 1 <= i < |trace|
      ensures !trace[i].via.AtOrigin?
    {
      if i <= |octants| {
        assert trace[i] == octants[i - 1] && octants[i - 1] in octants;
      } else {
        assert trace[i] == rays[i - 1 - |octants|] && rays[i - 1 - |octants|] in rays;
      }
    }
    forall a: Axis
      ensures OnAxis(trace, a) == OnAxis(rays, a)
    {
      OnAxisConcat([origin], octants, a);
      OnAxisConcat([origin] + octants, rays, a);
      OnAxisNone([origin], a);
      OnAxisNone(octants, a);
    }
    if radius < 1.0 {
      RaysBelowOne(cfg.bounds, x0, y0, radius, rays);
    }
  }

  /** A trace of ray events is split among the four rays. */
  lemma {:induction false} OnAxisPartition(rays: seq<Event>)
    requires forall e <- rays :: e.via.OnRay?
    ensures |rays| == |OnAxis(rays, PlusX)| + |OnAxis(rays, MinusX)| + |OnAxis(rays, PlusY)| + |OnAxis(rays, MinusY)|
    decreases |rays|
  {
    if rays != [] {
      assert rays[0] in rays;
      OnAxisPartition(rays[1..]);
      assert |OnAxis(rays, PlusX)| == (if rays[0].via.axis == PlusX then 1 else 0) + |OnAxis(rays[1..], PlusX)|;
      assert |OnAxis(rays, MinusX)| == (if rays[0].via.axis == MinusX then 1 else 0) + |OnAxis(rays[1..], MinusX)|;
      assert |OnAxis(rays, PlusY)| == (if rays[0].via.axis == PlusY then 1 else 0) + |OnAxis(rays[1..], PlusY)|;
      assert |OnAxis(rays, MinusY)| == (if rays[0].via.axis == MinusY then 1 else 0) + |OnAxis(rays[1..], MinusY)|;
    }
  }

  /** With no cell within the radius, no ray emits anything. */
  lemma RaysBelowOne(b: Bounds, x0: int, y0: int, radius: real, rays: seq<Event>)
    requires radius < 1.0
    requires forall e <- rays :: e.via.OnRay?
    requires forall a: Axis :: RayFrom(b, a, x0, y0, Reach(radius), OnAxis(rays, a), 1)
    ensures rays == []
  {
    OnAxisPartition(rays);
  }

  lemma OrderedOctantsAfterOrigin(origin: Event, octants: seq<Event>, nd: nat)
    requires origin.via.AtOrigin?
    requires Ordered(octants, nd)
    ensures Ordered([origin] + octants, nd)
  {
    var t := [origin] + octants;
    forall i, j | 0 <= i < j < |t|
      ensures Phase(t[i], nd) <= Phase(t[j], nd)
    {
      if i > 0 {
        assert t[i] == octants[i - 1] && t[j] == octants[j - 1];
      }
    }
  }

  lemma OrderedRaysLast(prefix: seq<Event>, rays: seq<Event>, nd: nat)
    requires Ordered(prefix, nd) && Ordered(rays, nd)
    requires forall e <- prefix :: !e.via.OnRay? && (e.via.InOctant? ==> e.via.k < nd)
    requires forall e <- rays :: e.via.OnRay?
    ensures Ordered(prefix + rays, nd)
  {
    var t := prefix + rays;
    forall i, j | 0 <= i < j < |t|
      ensures Phase(t[i], nd) <= Phase(t[j], nd)
    {
      if j < |prefix| {
        assert t[i] == prefix[i] && t[j] == prefix[j];
      } else if i < |prefix| {
        assert t[i] == prefix[i] && prefix[i] in prefix;
        assert t[j] == rays[j - |prefix|] && rays[j - |prefix|] in rays;
      } else {
        assert t[i] == rays[i - |prefix|] && t[j] == rays[j - |prefix|];
      }
    }
  }

  /** What the defaults of an omitted option add to an evaluation's promises. */
  ghost predicate DefaultsHold<T>(params: Params<T>, initialState: T, x0: int, y0: int, radius: real, result: T, trace: seq<Event>)
  {
    // without hooks the state comes back untouched
    && (params.onStart.None? && params.onVisible.None? && params.onEnd.None? ==> result == initialState)
    // the default oracle blocks everything: every query is answered blocked,
    // so each ray stops at its first cell and each octant at its cell (-1, -1)
    && (params.isBlocked.None? ==> && (forall e <- trace :: e.Probe? ==> e.blocked)
                                   && (forall a: Axis :: |OnAxis(trace, a)| <= 2)
                                   && forall e <- trace :: e.via.InOctant? ==> e.via.dx == -1 && e.via.dy == -1)
    // with the default table as well, nothing beyond the viewer's eight
    // neighbours is ever emitted or queried
    && (params.isBlocked.None? && params.directions.None? ==>
          forall e <- trace :: Abs(e.x - x0) <= 1 && Abs(e.y - y0) <= 1)
    // the default direction table scans eight octants, in table order, whose
    // cells lie off both axes through the origin: after the origin event no
    // event is at the origin
    && (params.directions.None? ==> && Ordered(trace, 8)
                                    && (forall e <- trace :: e.via.InOctant? ==> e.x != x0 && e.y != y0)
                                    && forall i :: 1 <= i < |trace| ==> (trace[i].x, trace[i].y) != (x0, y0))
    // with the default table and the default (Euclidean) metric, when every
    // answer is clear, every cell off both axes through the viewer that is in
    // bounds and within the radius is seen
    && (params.directions.None? && params.getDistance.None? && radius >= 0.0 && AnsweredClear(trace) ==>
          forall x, y :: && x != x0 && y != y0 && InDisc(x - x0, y - y0, radius)
                         && (params.bounds.None? || InBounds(params.bounds.value, x, y))
                         ==> Seen(trace, x, y))
  }

  /** The source's free `evaluate`: resolve the options, then scan. `euclidean`
      stands for the default metric, a square root the model does not compute;
      it must be one at every cell. */
  method Evaluate<T(!new)>(initialState: T, x0: int, y0: int, radius: real, params: Params<T>, euclidean: (int, int) -> real)
    returns (result: T, trace: seq<Event>)
    requires forall dx, dy :: IsEuclideanAt(euclidean, dx, dy)
    ensures Evaluated(Resolve(params, euclidean), initialState, x0, y0, radius, result, trace)
    ensures DefaultsHold(params, initialState, x0, y0, radius, result, trace)
  {
    var cfg := Resolve(params, euclidean);
    result, trace := EvaluateWith(cfg, initialState, x0, y0, radius);
    if params.onStart.None? && params.onVisible.None? && params.onEnd.None? {
      ReplayIdentity(cfg.onVisible, cfg.onStart(initialState, x0, y0), trace);
    }
    if params.isBlocked.None? {
      AlwaysBlockedTrace(cfg.isBlocked, cfg.onVisible, cfg.onStart(initialState, x0, y0), trace);
      forall a: Axis
        ensures |OnAxis(trace, a)| <= 2
      {
        OnAxisSubset(trace, a);
        BlockedRayIsOneCell(cfg.bounds, a, x0, y0, Reach(radius), OnAxis(trace, a));
      }
    }
    if params.directions.None? {
      DefaultTableOffOrigin(cfg, x0, y0, radius, trace);
    }
    if params.isBlocked.None? && params.directions.None? {
      forall e | e in trace && e.via.OnRay?
        ensures (e.x, e.y) == RayCell(e.via.axis, x0, y0, 1)
      {
        OnAxisSubset(trace, e.via.axis);
        OnAxisKeeps(trace, e.via.axis);
        BlockedRayIsOneCell(cfg.bounds, e.via.axis, x0, y0, Reach(radius), OnAxis(trace, e.via.axis));
      }
      forall e | e in trace && e.via.AtOrigin?
        ensures e.x == x0 && e.y == y0
      {
        var i :| 0 <= i < |trace| && trace[i] == e;
      }
      Directions8AreSymmetries();
      OccludedNeighbourhood(cfg, x0, y0, radius, trace);
    }
    if params.directions.None? && params.getDistance.None? && radius >= 0.0 && AnsweredClear(trace) {
      OpenDisc(cfg, x0, y0, radius, trace);
    }
  }

  /** With the default table and a Euclidean metric, octants that emit every
      cell in bounds and within the radius see the whole disc off the axes:
      each such cell is reached by some octant from a canonical cell at the
      same distance, in a row the radius admits. */
  lemma OpenDisc<T>(cfg: Config<T>, x0: int, y0: int, radius: real, trace: seq<Event>)
    requires cfg.directions == Directions8
    requires forall dx, dy :: IsEuclideanAt(cfg.getDistance, dx, dy)
    requires radius >= 0.0
    requires forall k :: 0 <= k < |cfg.directions| ==> OctantEmitted(cfg, k, x0, y0, radius, trace)
    ensures forall x, y :: x != x0 && y != y0 && InBounds(cfg.bounds, x, y) && InDisc(x - x0, y - y0, radius) ==> Seen(trace, x, y)
  {
    forall x, y | x != x0 && y != y0 && InBounds(cfg.bounds, x, y) && InDisc(x - x0, y - y0, radius)
      ensures Seen(trace, x, y)
    {
      OctantsCoverOffAxis(x - x0, y - y0);
      var k, dx, dy :| && 0 <= k < |Directions8| && dy <= dx <= -1
                       && Directions8[k].OffsetX(dx, dy) == x - x0 && Directions8[k].OffsetY(dx, dy) == y - y0;
      Directions8AreSymmetries();
      DiscCellSeen(cfg, k, x0, y0, radius, trace, dx, dy);
    }
  }

  /** One step of `OpenDisc`: a canonical cell whose world image is in bounds
      and inside the disc is emitted by its octant. */
  lemma DiscCellSeen<T>(cfg: Config<T>, k: nat, x0: int, y0: int, radius: real, trace: seq<Event>, dx: int, dy: int)
    requires k < |cfg.directions| && IsSignedPermutation(cfg.directions[k])
    requires IsEuclideanAt(cfg.getDistance, dx, dy)
    requires radius >= 0.0 && dy <= dx <= -1
    requires OctantEmitted(cfg, k, x0, y0, radius, trace)
    requires var t := cfg.directions[k];
             InBounds(cfg.bounds, x0 + t.OffsetX(dx, dy), y0 + t.OffsetY(dx, dy)) && InDisc(t.OffsetX(dx, dy), t.OffsetY(dx, dy), radius)
    ensures Seen(trace, x0 + cfg.directions[k].OffsetX(dx, dy), y0 + cfg.directions[k].OffsetY(dx, dy))
  {
    SquaredLengthInvariantUnderSymmetry(cfg.directions[k], dx, dy);
    assert InDisc(dx, dy, radius);
    DiscRowWithinReach(dx, dy, radius);
    EuclideanWithinRadius(cfg.getDistance, dx, dy, radius);
    assert OctantVisible(cfg, k, x0, y0, dx, dy) in trace;
  }

  /** A canonical cell inside the disc lies in a row the radius admits. */
  lemma DiscRowWithinReach(dx: int, dy: int, radius: real)
    requires dy <= -1 && radius >= 0.0 && InDisc(dx, dy, radius)
    ensures -dy <= Reach(radius)
  {
    assert dy * dy <= dx * dx + dy * dy;
    if radius < (-dy) as real {
      SquareMonotonic(radius, (-dy) as real);
      assert false;
    }
    ReachBound(-dy, radius);
  }

  /** A trace whose octants, scanned through signed permutations, stop at
      their cell (-1, -1), whose rays stop at their first cell, and whose only
      origin event is at the viewer, stays within the viewer's 3 x 3 block. */
  lemma OccludedNeighbourhood<T>(cfg: Config<T>, x0: int, y0: int, radius: real, trace: seq<Event>)
    requires forall k :: 0 <= k < |cfg.directions| ==> IsSignedPermutation(cfg.directions[k])
    requires forall e <- trace :: e.via.AtOrigin? ==> e.x == x0 && e.y == y0
    requires forall e <- trace :: e.via.InOctant? ==> FromOctant(cfg, x0, y0, radius, e)
    requires forall e <- trace :: e.via.InOctant? ==> e.via.dx == -1 && e.via.dy == -1
    requires forall e <- trace :: e.via.OnRay? ==> (e.x, e.y) == RayCell(e.via.axis, x0, y0, 1)
    ensures forall e <- trace :: Abs(e.x - x0) <= 1 && Abs(e.y - y0) <= 1
  {
    forall e | e in trace && e.via.InOctant?
      ensures Abs(e.x - x0) <= 1 && Abs(e.y - y0) <= 1
    {
      SignedPermutationKeepsMagnitudes(cfg.directions[e.via.k], -1, -1);
    }
  }

  /** Under the default table, octant cells are off both axes through the
      origin, so no event after the origin event is at the origin. */
  lemma DefaultTableOffOrigin<T>(cfg: Config<T>, x0: int, y0: int, radius: real, trace: seq<Event>)
    requires cfg.directions == Directions8
    requires forall i :: 1 <= i < |trace| ==> !trace[i].via.AtOrigin?
    requires forall e <- trace :: e.via.InOctant? ==> FromOctant(cfg, x0, y0, radius, e)
    requires forall e <- trace :: e.via.OnRay? ==> (e.x == x0) != (e.y == y0)
    ensures Ordered(trace, |Directions8|) ==> Ordered(trace, 8)
    ensures forall e <- trace :: e.via.InOctant? ==> e.x != x0 && e.y != y0
    ensures forall i :: 1 <= i < |trace| ==> (trace[i].x, trace[i].y) != (x0, y0)
  {
    Directions8AreSymmetries();
    forall e | e in trace && e.via.InOctant?
      ensures e.x != x0 && e.y != y0
    {
      OctantCellIsOffAxis(Directions8[e.via.k], e.via.dx, e.via.dy);
    }
    forall i | 1 <= i < |trace|
      ensures (trace[i].x, trace[i].y) != (x0, y0)
    {
      assert trace[i] in trace;
    }
  }
}

/** The class form of the API: an object holding the options, whose
    `evaluate` hands them to the free function. */
module Viewer {
  import opened Config
  import opened Trace
  import ShadowCasting
  import Metrics

  /** The source's class: it holds the options and evaluates with them.
      The class itself has only the options; `euclidean` is not one of its
      fields but stands for the module's default Euclidean metric, a square
      root the model takes as a value rather than computes. */
  datatype ShadowCasting2D<!T(!new)> = ShadowCasting2D(params: Params<T>, euclidean: (int, int) -> real)
  {
    method Evaluate(state: T, x0: int, y0: int, radius: real) returns (result: T, trace: seq<Event>)
      requires forall dx, dy :: Metrics.IsEuclideanAt(euclidean, dx, dy)
      ensures ShadowCasting.Evaluated(Resolve(params, euclidean), state, x0, y0, radius, result, trace)
      ensures ShadowCasting.DefaultsHold(params, state, x0, y0, radius, result, trace)
    {
      result, trace := ShadowCasting.Evaluate(state, x0, y0, radius, params, euclidean);
    }
  }
}

=== FILE: geometry.dfy ===
/**
 Direction transforms of the shadow-casting scan.

 The scanner walks one canonical octant in local coordinates (dx, dy), with
 dy <= dx <= -1, and maps each local cell to a world offset through a 4-tuple
 (xx, xy, yx, yy): world x = xx*dx + xy*dy, world y = yx*dx + yy*dy.
 The default table holds the eight reflections/rotations of the square grid.
 */
module Geometry {

  datatype Transform = Transform(xx: int, xy: int, yx: int, yy: int)
  {
    /** World x offset of the local cell (dx, dy); the scanner writes it as dx*xx + xy*dy. */
    function OffsetX(dx: int, dy: int): int { dx * xx + xy * dy }

    /** World y offset of the local cell (dx, dy). */
    function OffsetY(dx: int, dy: int): int { yx * dx + yy * dy }
  }

  /** The default direction table, in the scan order of the source. */
  const Directions8: seq<Transform> := [
    Transform( 0, -1, -1,  0),
    Transform(-1,  0,  0, -1),
    Transform( 0,  1, -1,  0),
    Transform( 1,  0,  0, -1),
    Transform( 0, -1,  1,  0),
    Transform(-1,  0,  0,  1),
    Transform( 0,  1,  1,  0),
    Transform( 1,  0,  0,  1)
  ]

  predicate IsUnit(v: int) { -1 <= v <= 1 }

  /** A 2x2 matrix with entries in {-1, 0, 1} and exactly one nonzero entry per row and per column. */
  predicate IsSignedPermutation(t: Transform) {
    && IsUnit(t.xx) && IsUnit(t.xy) && IsUnit(t.yx) && IsUnit(t.yy)
    && (t.xx != 0) != (t.xy != 0)
    && (t.yx != 0) != (t.yy != 0)
    && (t.xx != 0) != (t.yx != 0)
    && (t.xy != 0) != (t.yy != 0)
  }

  function Abs(v: int): nat { if v < 0 then -v else v }

  /** The table has eight pairwise distinct signed permutation matrices. */
  lemma Directions8AreSymmetries()
    ensures |Directions8| == 8
    ensures forall k :: 0 <= k < |Directions8| ==> IsSignedPermutation(Directions8[k])
    ensures forall i, j :: 0 <= i < j < |Directions8| ==> Directions8[i] != Directions8[j]
  {
  }

  /** Conversely, every signed permutation matrix is in the table, so the table is the whole symmetry group of the grid. */
  lemma Directions8Complete(t: Transform)
    requires IsSignedPermutation(t)
    ensures t in Directions8
  {
    if t.xx == 0 {
      assert t.yy == 0 && t.xy != 0 && t.yx != 0;
      if t.xy == -1 && t.yx == -1 { assert t == Directions8[0]; }
      else if t.xy == 1 && t.yx == -1 { assert t == Directions8[2]; }
      else if t.xy == -1 && t.yx == 1 { assert t == Directions8[4]; }
      else { assert t == Directions8[6]; }
    } else {
      assert t.xy == 0 && t.yx == 0 && t.yy != 0;
      if t.xx == -1 && t.yy == -1 { assert t == Directions8[1]; }
      else if t.xx == 1 && t.yy == -1 { assert t == Directions8[3]; }
      else if t.xx == -1 && t.yy == 1 { assert t == Directions8[5]; }
      else { assert t == Directions8[7]; }
    }
  }

  /** A signed permutation moves the pair of absolute values around but keeps it: the world offset is (+-dx, +-dy) or (+-dy, +-dx). */
  lemma SignedPermutationKeepsMagnitudes(t: Transform, dx: int, dy: int)
    requires IsSignedPermutation(t)
    ensures || (Abs(t.OffsetX(dx, dy)) == Abs(dx) && Abs(t.OffsetY(dx, dy)) == Abs(dy))
            || (Abs(t.OffsetX(dx, dy)) == Abs(dy) && Abs(t.OffsetY(dx, dy)) == Abs(dx))
  {
    if t.xx == 0 {
      assert t.OffsetX(dx, dy) == (if t.xy == 1 then dy else -dy);
      assert t.OffsetY(dx, dy) == (if t.yx == 1 then dx else -dx);
    } else {
      assert t.OffsetX(dx, dy) == (if t.xx == 1 then dx else -dx);
      assert t.OffsetY(dx, dy) == (if t.yy == 1 then dy else -dy);
    }
  }

  /** A canonical-octant cell (dy <= dx <= -1) never lands on a world axis through the origin: those cells belong to the cardinal rays. */
  lemma OctantCellIsOffAxis(t: Transform, dx: int, dy: int)
    requires IsSignedPermutation(t)
    requires dy <= dx <= -1
    ensures t.OffsetX(dx, dy) != 0 && t.OffsetY(dx, dy) != 0
  {
    SignedPermutationKeepsMagnitudes(t, dx, dy);
  }

  /** Every world offset off both axes is reached by some octant of the default table from some canonical cell. */
  lemma OctantsCoverOffAxis(wx: int, wy: int)
    requires wx != 0 && wy != 0
    ensures exists k, dx, dy :: 0 <= k < |Directions8| && dy <= dx <= -1 &&
                                Directions8[k].OffsetX(dx, dy) == wx && Directions8[k].OffsetY(dx, dy) == wy
  {
    var a, b := Abs(wx), Abs(wy);
    var hi: int, lo: int := if a >= b then a else b, if a >= b then b else a;
    var dx: int, dy: int := -lo, -hi;
    var k :=
      if wx > 0 && wy > 0 then (if a >= b then 0 else 1)
      else if wx < 0 && wy > 0 then (if a >= b then 2 else 3)
      else if wx > 0 && wy < 0 then (if a >= b then 4 else 5)
      else (if a >= b then 6 else 7);
    assert Directions8[k].OffsetX(dx, dy) == wx && Directions8[k].OffsetY(dx, dy) == wy;
  }
}

=== FILE: metrics.dfy ===
/**
 Distance metrics. The scanner calls the metric with LOCAL octant
 coordinates (dx, dy) and compares the result with the radius.
 Manhattan and Chebyshev are integer valued and modelled exactly; the
 Euclidean metric needs a square root and is supplied by the caller as a
 function value, characterised here by its square.
 */
module Metrics {
  import opened Geometry

  /** |dx| + |dy|. */
  function Manhattan(dx: int, dy: int): real
  {
    (Abs(dx) + Abs(dy)) as real
  }

  /** max(|dx|, |dy|). */
  function Chebyshev(dx: int, dy: int): real
  {
    if Abs(dx) >= Abs(dy) then Abs(dx) as real else Abs(dy) as real
  }

  /** The two integer metrics are norms on the grid: non-negative, zero only at the origin, and Chebyshev <= Manhattan <= 2 * Chebyshev. */
  lemma MetricsAreNorms(dx: int, dy: int)
    ensures 0.0 <= Chebyshev(dx, dy) <= Manhattan(dx, dy) <= 2.0 * Chebyshev(dx, dy)
    ensures Manhattan(dx, dy) == 0.0 <==> dx == 0 && dy == 0
    ensures Chebyshev(dx, dy) == 0.0 <==> dx == 0 && dy == 0
  {
  }

  /** Monotonic in both |dx| and |dy|, which the radius cutoff relies on. */
  lemma MetricsMonotonic(dx: int, dy: int, dx': int, dy': int)
    requires Abs(dx) <= Abs(dx') && Abs(dy) <= Abs(dy')
    ensures Manhattan(dx, dy) <= Manhattan(dx', dy')
    ensures Chebyshev(dx, dy) <= Chebyshev(dx', dy')
  {
  }

  /** Measuring in local octant coordinates gives the same distance as measuring the world offset, for every signed permutation transform. */
  lemma MetricsInvariantUnderSymmetry(t: Transform, dx: int, dy: int)
    requires IsSignedPermutation(t)
    ensures Manhattan(t.OffsetX(dx, dy), t.OffsetY(dx, dy)) == Manhattan(dx, dy)
    ensures Chebyshev(t.OffsetX(dx, dy), t.OffsetY(dx, dy)) == Chebyshev(dx, dy)
  {
    SignedPermutationKeepsMagnitudes(t, dx, dy);
  }

  /** The squared length of an offset is the same in local octant
      coordinates and in the world, for every signed permutation transform. */
  lemma SquaredLengthInvariantUnderSymmetry(t: Transform, dx: int, dy: int)
    requires IsSignedPermutation(t)
    ensures t.OffsetX(dx, dy) * t.OffsetX(dx, dy) + t.OffsetY(dx, dy) * t.OffsetY(dx, dy) == dx * dx + dy * dy
  {
    if t.xx == 0 {
      assert t.OffsetX(dx, dy) == (if t.xy == 1 then dy else -dy);
      assert t.OffsetY(dx, dy) == (if t.yx == 1 then dx else -dx);
      assert (-dy) * (-dy) == dy * dy && (-dx) * (-dx) == dx * dx;
    } else {
      assert t.OffsetX(dx, dy) == (if t.xx == 1 then dx else -dx);
      assert t.OffsetY(dx, dy) == (if t.yy == 1 then dy else -dy);
      assert (-dy) * (-dy) == dy * dy && (-dx) * (-dx) == dx * dx;
    }
  }

  /** Offset (wx, wy) lies within the Euclidean disc of the given radius. */
  predicate InDisc(wx: int, wy: int, radius: real)
  {
    (wx * wx + wy * wy) as real <= radius * radius
  }

  /** The defining property of a square-root Euclidean metric at one cell. */
  predicate IsEuclideanAt(euclidean: (int, int) -> real, dx: int, dy: int)
  {
    var d := euclidean(dx, dy);
    d >= 0.0 && d * d == (dx * dx + dy * dy) as real
  }

  lemma SquareMonotonic(a: real, b: real)
    requires 0.0 <= a <= b
    ensures a * a <= b * b
    ensures a < b ==> a * a < b * b
  {
    var aa, ab, bb := a * a, a * b, b * b;
    assert aa <= ab <= bb;
    if a < b {
      assert ab < bb;
    }
  }

  /** For a Euclidean metric the scanner's test `distance <= radius` is the squared comparison dx^2 + dy^2 <= radius^2. */
  lemma EuclideanWithinRadius(euclidean: (int, int) -> real, dx: int, dy: int, radius: real)
    requires IsEuclideanAt(euclidean, dx, dy)
    requires radius >= 0.0
    ensures euclidean(dx, dy) <= radius <==> (dx * dx + dy * dy) as real <= radius * radius
  {
    var d := euclidean(dx, dy);
    assert d >= 0.0 && d * d == (dx * dx + dy * dy) as real;
    if d <= radius {
      SquareMonotonic(d, radius);
    } else {
      SquareMonotonic(radius, d);
      assert radius * radius < d * d;
    }
  }
}

=== FILE: rays.dfy ===
/**
 The four straight cardinal rays cast after the octant scan.

 Each ray steps i = 1, 2, ... while i <= radius, EMITS the cell first and only
 then tests it, stopping right after the first cell that is past its bound or
 blocked. The octant scan, by contrast, tests bounds before emitting.
 */
module Rays {
  import opened Config
  import opened Trace

  /** The cell i steps from the origin along the axis. */
  function RayCell(axis: Axis, x0: int, y0: int, i: int): (int, int)
  {
    match axis
    case PlusX => (x0 + i, y0)
    case MinusX => (x0 - i, y0)
    case PlusY => (x0, y0 + i)
    case MinusY => (x0, y0 - i)
  }

  /** The bound test that stops a ray, as the source writes it: each ray looks
      only at the side it walks towards. The -y ray compares y with minX, not
      minY; this is reproduced as written. */
  predicate PastBound(b: Bounds, axis: Axis, x: int, y: int)
  {
    match axis
    case PlusX => !AtMost(x, b.maxX)
    case MinusX => !AtLeast(x, b.minX)
    case PlusY => !AtMost(y, b.maxY)
    case MinusY => !AtLeast(y, b.minX)
  }

  /** The -y ray is stopped by the x-bound minX and not by minY: with minY = 0
      and minX = -10 the cell at y = -1 lies below the bounds yet the ray goes on. */
  lemma MinusYRayIgnoresMinY()
    ensures var b := Bounds(At(-10), At(0), Open, Open);
            !InBounds(b, 0, -1) && !PastBound(b, MinusY, 0, -1)
  {
  }

  /** The event that emits the cell i steps along the ray, at distance i. */
  function RayVisible(axis: Axis, x0: int, y0: int, i: int): Event
  {
    Visible(RayCell(axis, x0, y0, i).0, RayCell(axis, x0, y0, i).1, i as real, OnRay(axis))
  }

  /** The oracle query about the cell i steps along the ray. */
  function RayProbe(axis: Axis, x0: int, y0: int, i: int, blocked: bool): Event
  {
    Probe(RayCell(axis, x0, y0, i).0, RayCell(axis, x0, y0, i).1, blocked, OnRay(axis))
  }

  /** The events of a step at cell i that lets the ray go on: emitted, within the bound, not blocked. */
  predicate Passes(b: Bounds, axis: Axis, x0: int, y0: int, step: seq<Event>, i: int)
  {
    var (x, y) := RayCell(axis, x0, y0, i);
    step == [RayVisible(axis, x0, y0, i), RayProbe(axis, x0, y0, i, false)] && !PastBound(b, axis, x, y)
  }

  /** The events of a step at cell i that ends the ray: emitted, then either past
      the bound (and not queried) or queried and found blocked. */
  predicate Halts(b: Bounds, axis: Axis, x0: int, y0: int, step: seq<Event>, i: int)
  {
    var (x, y) := RayCell(axis, x0, y0, i);
    if PastBound(b, axis, x, y) then step == [RayVisible(axis, x0, y0, i)]
    else step == [RayVisible(axis, x0, y0, i), RayProbe(axis, x0, y0, i, true)]
  }

  /** The events a ray produces from cell i on, for a ray that may go up to
      cell `reach`: the cell is emitted; if it is past the bound the ray ends;
      otherwise the oracle is queried and the ray ends on a blocked answer and
      goes on to cell i + 1 on a clear one. Past `reach` nothing happens. */
  predicate RayFrom(b: Bounds, axis: Axis, x0: int, y0: int, reach: nat, ev: seq<Event>, i: nat)
    decreases reach + 1 - i
  {
    if i > reach then ev == []
    else
      && |ev| >= 1 && ev[0] == RayVisible(axis, x0, y0, i)
      && if PastBound(b, axis, RayCell(axis, x0, y0, i).0, RayCell(axis, x0, y0, i).1) then |ev| == 1
         else
           && |ev| >= 2 && ev[1].Probe? && ev[1] == RayProbe(axis, x0, y0, i, ev[1].blocked)
           && if ev[1].blocked then |ev| == 2 else RayFrom(b, axis, x0, y0, reach, ev[2..], i + 1)
  }

  /** A passing step at cell n followed by the ray from cell n + 1 is the ray from cell n. */
  lemma PassThen(b: Bounds, axis: Axis, x0: int, y0: int, reach: nat, step: seq<Event>, n: nat, rest: seq<Event>)
    requires Passes(b, axis, x0, y0, step, n)
    requires n <= reach
    requires RayFrom(b, axis, x0, y0, reach, rest, n + 1)
    ensures RayFrom(b, axis, x0, y0, reach, step + rest, n)
  {
    var ev := step + rest;
    assert ev[0] == step[0] && ev[1] == step[1];
    assert ev[2..] == rest;
  }

  /** A halting step at a cell the radius admits is the whole rest of the ray. */
  lemma HaltsEnds(b: Bounds, axis: Axis, x0: int, y0: int, reach: nat, step: seq<Event>, i: nat)
    requires Halts(b, axis, x0, y0, step, i)
    requires 1 <= i <= reach
    ensures RayFrom(b, axis, x0, y0, reach, step, i)
  {
  }

  /** The ray grammar read position by position: the m-th cell along the ray
      (from cell i) is emitted at index 2m at distance i + m, and queried at
      index 2m + 1; every cell followed by another one was within the bound and
      answered clear; and the ray never goes past `reach`. */
  lemma {:induction false} RayFromAt(b: Bounds, axis: Axis, x0: int, y0: int, reach: nat, ev: seq<Event>, i: nat, m: nat)
    requires RayFrom(b, axis, x0, y0, reach, ev, i)
    requires 2 * m < |ev|
    ensures i + m <= reach
    ensures ev[2 * m] == RayVisible(axis, x0, y0, i + m)
    ensures 2 * m + 1 < |ev| <==> !PastBound(b, axis, RayCell(axis, x0, y0, i + m).0, RayCell(axis, x0, y0, i + m).1)
    ensures 2 * m + 1 < |ev| ==> ev[2 * m + 1].Probe? && ev[2 * m + 1] == RayProbe(axis, x0, y0, i + m, ev[2 * m + 1].blocked)
    ensures 2 * m + 2 < |ev| ==> ev[2 * m + 1].Probe? && !ev[2 * m + 1].blocked
    decreases m
  {
    if m > 0 {
      var rest := ev[2..];
      RayFromAt(b, axis, x0, y0, reach, rest, i + 1, m - 1);
      assert ev[2 * m] == rest[2 * (m - 1)];
      if 2 * m + 1 < |ev| {
        assert ev[2 * m + 1] == rest[2 * (m - 1) + 1];
      }
    }
  }

  /** Every event of a ray comes from that ray. */
  lemma {:induction false} RayFromOnAxis(b: Bounds, axis: Axis, x0: int, y0: int, reach: nat, ev: seq<Event>, i: nat)
    requires RayFrom(b, axis, x0, y0, reach, ev, i)
    ensures forall e <- ev :: e.via == OnRay(axis)
    decreases reach + 1 - i
  {
    if i <= reach && |ev| > 2 {
      RayFromOnAxis(b, axis, x0, y0, reach, ev[2..], i + 1);
      assert ev == ev[..2] + ev[2..];
    }
  }

  /** Every cell of a ray lies on its axis through the origin and off the origin
      itself: exactly one of its coordinates is the origin's. */
  lemma {:induction false} RayFromOffOrigin(b: Bounds, axis: Axis, x0: int, y0: int, reach: nat, ev: seq<Event>, i: nat)
    requires RayFrom(b, axis, x0, y0, reach, ev, i)
    requires i >= 1
    ensures forall e <- ev :: (e.x == x0) != (e.y == y0)
    decreases reach + 1 - i
  {
    if i <= reach && |ev| > 2 {
      RayFromOffOrigin(b, axis, x0, y0, reach, ev[2..], i + 1);
      assert ev == ev[..2] + ev[2..];
    }
  }

  /** When every query on a ray is answered blocked, the ray stops at its first cell. */
  lemma BlockedRayIsOneCell(b: Bounds, axis: Axis, x0: int, y0: int, reach: nat, ev: seq<Event>)
    requires RayFrom(b, axis, x0, y0, reach, ev, 1)
    requires forall e <- ev :: e.Probe? ==> e.blocked
    ensures |ev| <= 2
    ensures reach >= 1 ==> |ev| >= 1 && ev[0] == RayVisible(axis, x0, y0, 1)
    ensures forall e <- ev :: (e.x, e.y) == RayCell(axis, x0, y0, 1)
  {
    if reach >= 1 && !PastBound(b, axis, RayCell(axis, x0, y0, 1).0, RayCell(axis, x0, y0, 1).1) {
      assert ev[1] in ev;
    }
  }

  /** One step of a ray: emit the cell at distance i, then, unless it is past
      the bound, ask the oracle about it with the state after the emission. */
  method RayStep<T>(cfg: Config<T>, axis: Axis, x0: int, y0: int, i: int, s0: T)
    returns (s: T, trace: seq<Event>, stop: bool)
    ensures s == Replay(cfg.onVisible, s0, trace)
    ensures Consistent(cfg.isBlocked, cfg.onVisible, s0, trace)
    ensures stop ==> Halts(cfg.bounds, axis, x0, y0, trace, i)
    ensures !stop ==> Passes(cfg.bounds, axis, x0, y0, trace, i)
  {
    var (x, y) := RayCell(axis, x0, y0, i);
    var e := Visible(x, y, i as real, OnRay(axis));
    ReplaySnoc(cfg.onVisible, s0, [], e);
    ConsistentSnoc(cfg.isBlocked, cfg.onVisible, s0, [], e);
    s := cfg.onVisible(s0, x, y, i as real);
    trace := [e];
    stop := true;
    if !PastBound(cfg.bounds, axis, x, y) {
      var isBlocked := cfg.isBlocked(s, x, y);
      var probe := Probe(x, y, isBlocked, OnRay(axis));
      ReplaySnoc(cfg.onVisible, s0, trace, probe);
      ConsistentSnoc(cfg.isBlocked, cfg.onVisible, s0, trace, probe);
      trace := trace + [probe];
      stop := isBlocked;
    }
  }

  /** Casts the ray along `axis` from (x0, y0), from the cell at distance i on:
      the source's loop over i = 1, 2, ... while i <= radius, written as recursion. */
  method CastRayFrom<T>(cfg: Config<T>, axis: Axis, x0: int, y0: int, radius: real, i: nat, s0: T)
    returns (s: T, trace: seq<Event>)
    requires i >= 1
    ensures s == Replay(cfg.onVisible, s0, trace)
    ensures Consistent(cfg.isBlocked, cfg.onVisible, s0, trace)
    ensures RayFrom(cfg.bounds, axis, x0, y0, Reach(radius), trace, i)
    decreases Reach(radius) + 1 - i
  {
    ReachBound(i, radius);
    if !(i as real <= radius) {
      return s0, [];
    }
    var s1, step, stop := RayStep(cfg, axis, x0, y0, i, s0);
    if stop {
      HaltsEnds(cfg.bounds, axis, x0, y0, Reach(radius), step, i);
      return s1, step;
    }
    var rest;
    s, rest := CastRayFrom(cfg, axis, x0, y0, radius, i + 1, s1);
    ReplayConcat(cfg.onVisible, s0, step, rest);
    ConsistentConcat(cfg.isBlocked, cfg.onVisible, s0, step, rest);
    PassThen(cfg.bounds, axis, x0, y0, Reach(radius), step, i, rest);
    trace := step + rest;
  }

  /** The whole ray along `axis`, starting at distance 1. */
  method CastRay<T>(cfg: Config<T>, axis: Axis, x0: int, y0: int, radius: real, s0: T)
    returns (s: T, trace: seq<Event>)
    ensures s == Replay(cfg.onVisible, s0, trace)
    ensures Consistent(cfg.isBlocked, cfg.onVisible, s0, trace)
    ensures RayFrom(cfg.bounds, axis, x0, y0, Reach(radius), trace, 1)
    ensures forall e <- trace :: e.via == OnRay(axis)
    ensures forall e <- trace :: (e.x == x0) != (e.y == y0)
    ensures |trace| <= 2 * Reach(radius)
  {
    s, trace := CastRayFrom(cfg, axis, x0, y0, radius, 1, s0);
    RayFromOnAxis(cfg.bounds, axis, x0, y0, Reach(radius), trace, 1);
    RayFromOffOrigin(cfg.bounds, axis, x0, y0, Reach(radius), trace, 1);
    if |trace| > 0 {
      RayFromAt(cfg.bounds, axis, x0, y0, Reach(radius), trace, 1, (|trace| - 1) / 2);
    }
  }
}

=== FILE: scanner.dfy ===
/**
 The slope-interval scanner of one octant.

 Recursion is simulated with an explicit LIFO stack of frames
 (row, start, finish): "scan outward from `row`, restricted to the slope
 window from `finish` up to `start`". The octant starts from the single frame
 (1, 1, 0). Popping a frame scans its rows; a blocked run that starts in a row
 short of the radius pushes a frame for the next row, bounded by the slope
 window left of the occluder.
 */
module Scanner {
  import opened Geometry
  import opened Slopes
  import opened Config
  import opened Trace

  datatype Frame = Frame(row: int, start: real, finish: real)

  /** The frame's finish slope is the left slope of cell dx of the row just above it. */
  predicate ClosesAt(c: Frame, dx: int)
  {
    c.row >= 2 && 1 - c.row <= dx <= -1 && c.finish == LeftSlope(dx, 1 - c.row)
  }

  /** What every event of the octant scan satisfies: it is at a cell (dx, dy)
      of the canonical octant (dy <= dx <= -1) no deeper than the radius, mapped
      to the world through the octant's transform; and when it is an emission,
      the cell is inside the bounds and its distance, measured in local
      coordinates, is within the radius. */
  predicate FromOctant<T>(cfg: Config<T>, x0: int, y0: int, radius: real, e: Event)
  {
    && e.via.InOctant?
    && e.via.k < |cfg.directions|
    && var t, dx, dy := cfg.directions[e.via.k], e.via.dx, e.via.dy;
    && dy <= dx <= -1
    && (-dy) as real <= radius
    && e.x == x0 + t.OffsetX(dx, dy)
    && e.y == y0 + t.OffsetY(dx, dy)
    && (e.Visible? ==> InBounds(cfg.bounds, e.x, e.y) && e.distance == cfg.getDistance(dx, dy) && e.distance <= radius)
  }

  /** Every event of rows lo .. hi of octant k: an octant-cell event of that
      direction whose row -dy lies between lo and hi. */
  predicate InRows<T>(cfg: Config<T>, x0: int, y0: int, radius: real, k: nat, lo: int, hi: int, e: Event)
  {
    FromOctant(cfg, x0, y0, radius, e) && e.via.k == k && lo <= -e.via.dy <= hi
  }

  /** A frame pushed from rows at or below `lo`: strictly deeper, at most one row
      past the radius, and closing at the left slope of a cell in the row above. */
  ghost predicate Child(c: Frame, radius: real, lo: int)
  {
    lo < c.row <= Reach(radius) + 1 && (c.row - 1) as real < radius && exists dx :: ClosesAt(c, dx)
  }

  /** The last event of `trace` is an oracle query in row dy, answered blocked. */
  predicate EndsBlocked(trace: seq<Event>, dy: int)
  {
    && trace != []
    && trace[|trace| - 1].Probe? && trace[|trace| - 1].blocked
    && trace[|trace| - 1].via.InOctant? && trace[|trace| - 1].via.dy == dy
  }

  /** The break test of the row loop at cell (dx, dy) of octant k: the cell is
      in bounds, its near corner is inside the window, and its far corner is
      beyond the window's far edge. */
  predicate Breaks<T>(cfg: Config<T>, k: nat, x0: int, y0: int, start: real, finish: real, dx: int, dy: int)
  {
    && k < |cfg.directions| && dy <= -1
    && InBounds(cfg.bounds, x0 + cfg.directions[k].OffsetX(dx, dy), y0 + cfg.directions[k].OffsetY(dx, dy))
    && RightSlope(dx, dy) <= start && finish > LeftSlope(dx, dy)
  }

  /** The queries `q` of row dy are about its cells dx = dy, dy + 1, ... in
      that order, one query per cell. */
  predicate QueriesFromLeft(q: seq<Event>, k: nat, dy: int)
  {
    forall j :: 0 <= j < |q| ==> q[j].via == InOctant(k, dy + j, dy)
  }

  /** The first cell (-r, -r) of row r of octant k was queried. */
  ghost predicate RowProbed(trace: seq<Event>, k: nat, r: int)
  {
    exists e <- trace :: e.Probe? && e.via == InOctant(k, -r, -r)
  }

  /** A concatenation queries the first cell of a row when either part does. */
  lemma RowProbedConcat(a: seq<Event>, b: seq<Event>, k: nat, r: int)
    ensures RowProbed(a + b, k, r) <==> RowProbed(a, k, r) || RowProbed(b, k, r)
  {
    if RowProbed(a + b, k, r) {
      var e :| e in a + b && e.Probe? && e.via == InOctant(k, -r, -r);
      assert e in a || e in b;
    }
    if RowProbed(a, k, r) {
      var e :| e in a && e.Probe? && e.via == InOctant(k, -r, -r);
      assert e in a + b;
    }
    if RowProbed(b, k, r) {
      var e :| e in b && e.Probe? && e.via == InOctant(k, -r, -r);
      assert e in a + b;
    }
  }

  /** Some query in row r of octant k was answered blocked. */
  ghost predicate BlockedInRow(trace: seq<Event>, k: nat, r: int)
  {
    exists e <- trace :: e.Probe? && e.blocked && e.via.InOctant? && e.via.k == k && e.via.dy == -r
  }

  /** Cell (dx, dy) of octant k passes the row loop's emission test with the
      window's near edge at `start`: it is in bounds, its near corner is
      inside the window, and its distance is within the radius. */
  predicate Admitted<T>(cfg: Config<T>, k: nat, x0: int, y0: int, radius: real, start: real, dx: int, dy: int)
  {
    && k < |cfg.directions| && dy <= -1
    && InBounds(cfg.bounds, x0 + cfg.directions[k].OffsetX(dx, dy), y0 + cfg.directions[k].OffsetY(dx, dy))
    && RightSlope(dx, dy) <= start && cfg.getDistance(dx, dy) <= radius
  }

  /** The emission of cell (dx, dy) of octant k, at its world location. */
  function OctantVisible<T>(cfg: Config<T>, k: nat, x0: int, y0: int, dx: int, dy: int): Event
    requires k < |cfg.directions|
  {
    Visible(x0 + cfg.directions[k].OffsetX(dx, dy), y0 + cfg.directions[k].OffsetY(dx, dy), cfg.getDistance(dx, dy), InOctant(k, dx, dy))
  }

  /** Every admitted cell dx' of row dy with dy <= dx' < hi was emitted in `trace`. */
  predicate EmittedUpTo<T>(cfg: Config<T>, k: nat, x0: int, y0: int, radius: real, start: real, dy: int, hi: int, trace: seq<Event>)
    requires k < |cfg.directions|
  {
    forall dx' :: dy <= dx' < hi && Admitted(cfg, k, x0, y0, radius, start, dx', dy) ==> OctantVisible(cfg, k, x0, y0, dx', dy) in trace
  }

  /** Every admitted cell of row r (that is, dy = -r) of octant k was emitted
      in `trace`, for a window whose near edge is `start`. */
  predicate RowEmitted<T>(cfg: Config<T>, k: nat, x0: int, y0: int, radius: real, start: real, r: int, trace: seq<Event>)
    requires k < |cfg.directions|
  {
    EmittedUpTo(cfg, k, x0, y0, radius, start, -r, 0, trace)
  }

  /** Every cell of octant k in rows 1 .. Reach(radius) that lies in bounds
      and within the radius was emitted in `trace`. */
  predicate OctantEmitted<T>(cfg: Config<T>, k: nat, x0: int, y0: int, radius: real, trace: seq<Event>)
    requires k < |cfg.directions|
  {
    forall dx, dy ::
      && dy <= dx <= -1 && -dy <= Reach(radius)
      && InBounds(cfg.bounds, x0 + cfg.directions[k].OffsetX(dx, dy), y0 + cfg.directions[k].OffsetY(dx, dy))
      && cfg.getDistance(dx, dy) <= radius
      ==> OctantVisible(cfg, k, x0, y0, dx, dy) in trace
  }

  /** With the whole octant as the window (near edge 1), emitting every
      admitted cell of rows 1 .. Reach(radius) emits every cell in bounds and
      within the radius: a cell's near corner is always below slope 1. */
  lemma OctantRowsEmitted<T>(cfg: Config<T>, k: nat, x0: int, y0: int, radius: real, trace: seq<Event>)
    requires k < |cfg.directions|
    requires forall r :: 1 <= r <= Reach(radius) ==> RowEmitted(cfg, k, x0, y0, radius, 1.0, r, trace)
    ensures OctantEmitted(cfg, k, x0, y0, radius, trace)
  {
    forall dx, dy |
      && dy <= dx <= -1 && -dy <= Reach(radius)
      && InBounds(cfg.bounds, x0 + cfg.directions[k].OffsetX(dx, dy), y0 + cfg.directions[k].OffsetY(dx, dy))
      && cfg.getDistance(dx, dy) <= radius
      ensures OctantVisible(cfg, k, x0, y0, dx, dy) in trace
    {
      SlopeOrder(dx, dy);
      assert RowEmitted(cfg, k, x0, y0, radius, 1.0, -dy, trace);
      assert Admitted(cfg, k, x0, y0, radius, 1.0, dx, dy);
    }
  }

  /** An octant's emissions stay emitted when other events come before or after them. */
  lemma OctantEmittedConcat<T>(cfg: Config<T>, k: nat, x0: int, y0: int, radius: real, a: seq<Event>, b: seq<Event>)
    requires k < |cfg.directions|
    ensures OctantEmitted(cfg, k, x0, y0, radius, a) ==> OctantEmitted(cfg, k, x0, y0, radius, a + b)
    ensures OctantEmitted(cfg, k, x0, y0, radius, b) ==> OctantEmitted(cfg, k, x0, y0, radius, a + b)
  {
  }

  /** A row entered outside a blocked run whose queries have all been answered
      clear has not moved the run and has pushed nothing, and every admitted
      cell dx' with dy <= dx' < hi was emitted. */
  predicate ClearSoFar<T>(cfg: Config<T>, k: nat, x0: int, y0: int, radius: real, run: Run, dy: int, hi: int,
                          trace: seq<Event>, children: seq<Frame>, run': Run)
    requires k < |cfg.directions|
  {
    !run.blocked && AnsweredClear(trace) ==>
      run' == run && children == [] && EmittedUpTo(cfg, k, x0, y0, radius, run.start, dy, hi, trace)
  }

  /** The blocked-run bookkeeping carried along a frame's rows: the window's
      current near edge, the near edge to reopen at when the current blocked run
      ends, and whether the scan is inside a blocked run. */
  datatype Run = Run(start: real, newStart: real, blocked: bool)

  /** The bookkeeping after the oracle answered `blocked` for a cell of row dy
      with slopes leftSlope and rightSlope: the new run state and the frames to
      push. */
  function Advance(run: Run, blocked: bool, leftSlope: real, rightSlope: real, dy: int, radius: real)
    : (r: (Run, seq<Frame>))
    // a run is entered only short of the radius, and left at the first clear cell
    ensures r.0.blocked <==> blocked && (run.blocked || (-dy) as real < radius)
    // a frame is pushed exactly when a blocked run starts: for the next row,
    // from the current near edge to the occluder's left slope
    ensures r.1 != [] <==> !run.blocked && r.0.blocked
    ensures r.1 != [] ==> r.1 == [Frame(1 - dy, run.start, leftSlope)]
    // inside a run the reopening edge follows the right slope of the latest blocked cell
    ensures r.0.blocked ==> r.0.newStart == rightSlope
    ensures !r.0.blocked ==> r.0.newStart == run.newStart
    // the near edge moves only when a run ends, to the reopening edge
    ensures run.blocked && !r.0.blocked ==> r.0.start == run.newStart
    ensures !(run.blocked && !r.0.blocked) ==> r.0.start == run.start
  {
    if run.blocked then
      if blocked then (run.(newStart := rightSlope), []) else (Run(run.newStart, run.newStart, false), [])
    else if blocked && (-dy) as real < radius then
      (Run(run.start, rightSlope, true), [Frame(-dy + 1, run.start, leftSlope)])
    else (run, [])
  }

  /** Visits cell (dx, dy) of octant k, with the running slopes already advanced
      to the cell. `brk` reports that the cell lies past the window's far edge,
      which ends the row. */
  method VisitCell<T>(cfg: Config<T>, k: nat, x0: int, y0: int, radius: real, finish: real,
                      dx: int, dy: int, leftSlope: real, rightSlope: real, run: Run, s0: T)
    returns (s: T, trace: seq<Event>, push: seq<Frame>, run': Run, brk: bool)
    requires k < |cfg.directions|
    requires dy <= dx <= -1 && (-dy) as real <= radius
    ensures s == Replay(cfg.onVisible, s0, trace)
    ensures Consistent(cfg.isBlocked, cfg.onVisible, s0, trace)
    ensures forall e <- trace :: FromOctant(cfg, x0, y0, radius, e) && e.via == InOctant(k, dx, dy)
    // the row ends at an in-bounds cell whose near corner is inside the window
    // but whose far corner is beyond the window's far edge
    ensures brk <==> InBounds(cfg.bounds, x0 + cfg.directions[k].OffsetX(dx, dy), y0 + cfg.directions[k].OffsetY(dx, dy))
                     && rightSlope <= run.start && finish > leftSlope
    ensures brk ==> trace == [] && push == [] && run' == run
    // otherwise the cell is emitted when admitted and within the radius, and
    // the oracle is consulted afterwards in every case
    ensures !brk ==> |trace| >= 1 && trace[|trace| - 1].Probe?
    ensures !brk ==> Queries(trace) == [trace[|trace| - 1]]
    ensures !brk ==> |trace| <= 2 && (trace[0].Visible? <==> |trace| == 2)
    ensures !brk ==> (|trace| == 2 <==> InBounds(cfg.bounds, trace[0].x, trace[0].y) && rightSlope <= run.start
                                        && cfg.getDistance(dx, dy) <= radius)
    // then the bookkeeping follows the oracle's answer
    ensures !brk ==> (run', push) == Advance(run, trace[|trace| - 1].blocked, leftSlope, rightSlope, dy, radius)
  {
    var t := cfg.directions[k];
    var x := x0 + t.OffsetX(dx, dy);
    var y := y0 + t.OffsetY(dx, dy);
    if InBounds(cfg.bounds, x, y) && rightSlope <= run.start && finish > leftSlope {
      // past the window's far edge; later cells of the row are further still
      return s0, [], [], run, true;
    }
    // a cell outside the bounds, or past the window's open near edge, is not
    // visible; the others are emitted when within the radius
    var emit := InBounds(cfg.bounds, x, y) && rightSlope <= run.start && cfg.getDistance(dx, dy) <= radius;
    s, trace := EmitThenProbe(cfg, k, x0, y0, radius, dx, dy, emit, s0);
    OneQuery(trace);
    brk := false;
    var next := Advance(run, trace[|trace| - 1].blocked, leftSlope, rightSlope, dy, radius);
    run', push := next.0, next.1;
  }

  /** A visited cell's events, an optional emission then the query, hold exactly one query. */
  lemma OneQuery(cell: seq<Event>)
    requires 1 <= |cell| <= 2 && (cell[0].Visible? <==> |cell| == 2) && cell[|cell| - 1].Probe?
    ensures Queries(cell) == [cell[|cell| - 1]]
  {
    if |cell| == 2 {
      assert cell[1..] == [cell[1]];
    }
  }

  /** Emits cell (dx, dy) of octant k when `emit` holds, then asks the oracle
      about it with the state after that emission. */
  method EmitThenProbe<T>(cfg: Config<T>, k: nat, x0: int, y0: int, radius: real,
                          dx: int, dy: int, emit: bool, s0: T)
    returns (s: T, trace: seq<Event>)
    requires k < |cfg.directions|
    requires dy <= dx <= -1 && (-dy) as real <= radius
    requires emit ==> var t := cfg.directions[k];
                      && InBounds(cfg.bounds, x0 + t.OffsetX(dx, dy), y0 + t.OffsetY(dx, dy))
                      && cfg.getDistance(dx, dy) <= radius
    ensures s == Replay(cfg.onVisible, s0, trace)
    ensures Consistent(cfg.isBlocked, cfg.onVisible, s0, trace)
    ensures forall e <- trace :: FromOctant(cfg, x0, y0, radius, e) && e.via == InOctant(k, dx, dy)
    ensures |trace| == (if emit then 2 else 1)
    ensures trace[0].Visible? <==> emit
    ensures trace[|trace| - 1].Probe?
  {
    var t := cfg.directions[k];
    var x := x0 + t.OffsetX(dx, dy);
    var y := y0 + t.OffsetY(dx, dy);
    if emit {
      var distance := cfg.getDistance(dx, dy);
      var e := Visible(x, y, distance, InOctant(k, dx, dy));
      assert FromOctant(cfg, x0, y0, radius, e);
      s := cfg.onVisible(s0, x, y, distance);
      // the oracle sees the state after this cell's emission
      var probe := Probe(x, y, cfg.isBlocked(s, x, y), InOctant(k, dx, dy));
      assert FromOctant(cfg, x0, y0, radius, probe);
      ReplaySnoc(cfg.onVisible, s0, [], e);
      ConsistentSnoc(cfg.isBlocked, cfg.onVisible, s0, [], e);
      ReplaySnoc(cfg.onVisible, s0, [e], probe);
      ConsistentSnoc(cfg.isBlocked, cfg.onVisible, s0, [e], probe);
      assert [e] + [probe] == [e, probe];
      trace := [e, probe];
    } else {
      s := s0;
      var probe := Probe(x, y, cfg.isBlocked(s0, x, y), InOctant(k, dx, dy));
      assert FromOctant(cfg, x0, y0, radius, probe);
      ReplaySnoc(cfg.onVisible, s0, [], probe);
      ConsistentSnoc(cfg.isBlocked, cfg.onVisible, s0, [], probe);
      assert [] + [probe] == [probe];
      trace := [probe];
    }
  }

  /** Scans row dy of a frame from dx = dy towards the local axis, stopping at
      the first cell past the window's far edge. */
  method ScanRow<T>(cfg: Config<T>, k: nat, x0: int, y0: int, radius: real, finish: real,
                    dy: int, run: Run, s0: T)
    returns (s: T, trace: seq<Event>, children: seq<Frame>, run': Run)
    requires k < |cfg.directions|
    requires dy <= -1 && (-dy) as real <= radius
    ensures s == Replay(cfg.onVisible, s0, trace)
    ensures Consistent(cfg.isBlocked, cfg.onVisible, s0, trace)
    ensures forall e <- trace :: InRows(cfg, x0, y0, radius, k, -dy, -dy, e)
    // the cells are queried one by one from dx = dy on, each exactly once, and
    // each adds at most one emission, right before its query
    ensures QueriesFromLeft(Queries(trace), k, dy) && dy + |Queries(trace)| <= 0
    ensures |trace| <= 2 * |Queries(trace)| && EmitsBeforeQuery(trace)
    // the row stops short of the local axis only at a cell that meets the break
    // test, and every cell after it lies beyond the window's far edge as well
    ensures var dx := dy + |Queries(trace)|;
            dx < 0 ==> && Breaks(cfg, k, x0, y0, run'.start, finish, dx, dy)
                       && forall dx' :: dx <= dx' <= -1 ==> finish > LeftSlope(dx', dy)
    // a window ending at slope 1 or below never stops a row at its first cell
    ensures finish <= 1.0 ==> |Queries(trace)| >= 1
    ensures forall c <- children :: c.row == 1 - dy && Child(c, radius, -dy)
    ensures |children| <= -dy
    // a row that starts outside a blocked run and ends inside one (so its last
    // query was answered blocked) is what stops the frame from going deeper
    ensures !run.blocked && run'.blocked ==> EndsBlocked(trace, dy)
    // short of the radius, the row ends inside a blocked run exactly when its
    // last query was answered blocked
    ensures trace != [] ==> trace[|trace| - 1].Probe?
    ensures (-dy) as real < radius && trace != [] ==> (run'.blocked <==> EndsBlocked(trace, dy))
    // while every answer is blocked no run ends, so the near edge stays put
    // and every push starts from it
    ensures AnsweredBlocked(trace) ==> run'.start == run.start && forall c <- children :: c.start == run.start
    // while every answer is clear no run starts: nothing is pushed, the near
    // edge stays put, and every cell the window and the radius admit is emitted
    ensures ClearSoFar(cfg, k, x0, y0, radius, run, dy, dy + |Queries(trace)|, trace, children, run')
  {
    ReachBound(-dy, radius);
    HalfOffsetsNonZero(dy);
    FirstCellOnly(dy, dy);
    var invDyPlus05 := 1.0 / (dy as real + 0.5);
    var invDyMinus05 := 1.0 / (dy as real - 0.5);
    var leftSlope := (dy as real - 1.5) * invDyPlus05;
    var rightSlope := (dy as real - 0.5) * invDyMinus05;
    RowStartClosedForm(dy);
    s, trace, children, run' := s0, [], [], run;
    RowStarts(cfg, k, x0, y0, radius, dy, run, s0);
    var dx := dy;
    while dx < 0
      invariant dy <= dx <= 0
      invariant leftSlope == LeftSlope(dx - 1, dy) && rightSlope == RightSlope(dx - 1, dy)
      invariant RowSoFar(cfg, k, x0, y0, radius, dy, dx - dy, run, s0, s, trace, children, run')
      invariant ClearSoFar(cfg, k, x0, y0, radius, run, dy, dx, trace, children, run')
      decreases -dx
    {
      SlopeStep(dx, dy);
      leftSlope := leftSlope + invDyPlus05;
      rightSlope := rightSlope + invDyMinus05;
      var s1, trace1, children1, run1, brk :=
        RowStep(cfg, k, x0, y0, radius, finish, dx, dy, leftSlope, rightSlope, run, s0, s, trace, children, run');
      if brk {
        break;
      }
      s, trace, children, run' := s1, trace1, children1, run1;
      dx := dx + 1;
    }
    RowEnds(cfg, k, x0, y0, radius, finish, dy, dx, run, s0, s, trace, children, run');
    ClearEnds(cfg, k, x0, y0, radius, dy, dx, run, trace, children, run');
  }

  /** Before its first cell a row has established everything, vacuously. */
  lemma RowStarts<T>(cfg: Config<T>, k: nat, x0: int, y0: int, radius: real, dy: int, run: Run, s0: T)
    ensures RowSoFar(cfg, k, x0, y0, radius, dy, 0, run, s0, s0, [], [], run)
  {
  }

  /** What the row loop has established when it ends, at the local axis or at
      a cell that meets the break test, gives the row's contract. */
  lemma RowEnds<T>(cfg: Config<T>, k: nat, x0: int, y0: int, radius: real, finish: real, dy: int, dx: int,
                   run: Run, s0: T, s: T, trace: seq<Event>, children: seq<Frame>, run': Run)
    requires dy <= -1 && dy <= dx <= 0
    requires RowSoFar(cfg, k, x0, y0, radius, dy, dx - dy, run, s0, s, trace, children, run')
    requires dx < 0 ==> && Breaks(cfg, k, x0, y0, run'.start, finish, dx, dy)
                        && forall dx' :: dx <= dx' <= -1 ==> finish > LeftSlope(dx', dy)
    requires LeftSlope(dy, dy) > 1.0
    ensures s == Replay(cfg.onVisible, s0, trace)
    ensures Consistent(cfg.isBlocked, cfg.onVisible, s0, trace)
    ensures forall e <- trace :: InRows(cfg, x0, y0, radius, k, -dy, -dy, e)
    // the cells are queried one by one from dx = dy on, each exactly once, and
    // each adds at most one emission, right before its query
    ensures QueriesFromLeft(Queries(trace), k, dy) && dy + |Queries(trace)| <= 0
    ensures |trace| <= 2 * |Queries(trace)| && EmitsBeforeQuery(trace)
    // the row stops short of the local axis only at a cell that meets the break
    // test, and every cell after it lies beyond the window's far edge as well
    ensures var dx := dy + |Queries(trace)|;
            dx < 0 ==> && Breaks(cfg, k, x0, y0, run'.start, finish, dx, dy)
                       && forall dx' :: dx <= dx' <= -1 ==> finish > LeftSlope(dx', dy)
    // a window ending at slope 1 or below never stops a row at its first cell
    ensures finish <= 1.0 ==> |Queries(trace)| >= 1
    ensures forall c <- children :: c.row == 1 - dy && Child(c, radius, -dy)
    ensures |children| <= -dy
    // a row that starts outside a blocked run and ends inside one (so its last
    // query was answered blocked) is what stops the frame from going deeper
    ensures !run.blocked && run'.blocked ==> EndsBlocked(trace, dy)
    // short of the radius, the row ends inside a blocked run exactly when its
    // last query was answered blocked
    ensures trace != [] ==> trace[|trace| - 1].Probe?
    ensures (-dy) as real < radius && trace != [] ==> (run'.blocked <==> EndsBlocked(trace, dy))
    // while every answer is blocked no run ends, so the near edge stays put
    // and every push starts from it
    ensures AnsweredBlocked(trace) ==> run'.start == run.start && forall c <- children :: c.start == run.start
  {
  }

  /** The all-clear clause established up to cell dx, where the row stopped,
      covers the row up to its last query. */
  lemma ClearEnds<T>(cfg: Config<T>, k: nat, x0: int, y0: int, radius: real, dy: int, dx: int,
                     run: Run, trace: seq<Event>, children: seq<Frame>, run': Run)
    requires k < |cfg.directions| && dx == dy + |Queries(trace)|
    requires ClearSoFar(cfg, k, x0, y0, radius, run, dy, dx, trace, children, run')
    ensures ClearSoFar(cfg, k, x0, y0, radius, run, dy, dy + |Queries(trace)|, trace, children, run')
  {
  }

  /** While every answer is clear, a cell leaves the run as it was and, if
      the window and the radius admit it, is emitted. */
  lemma ClearStep<T>(cfg: Config<T>, k: nat, x0: int, y0: int, radius: real, dx: int, dy: int,
                     leftSlope: real, rightSlope: real, run: Run, runNow: Run,
                     trace: seq<Event>, children: seq<Frame>, cell: seq<Event>, push: seq<Frame>, run1: Run)
    requires k < |cfg.directions| && dy <= dx <= -1
    requires rightSlope == RightSlope(dx, dy)
    requires 1 <= |cell| <= 2 && cell[|cell| - 1].Probe? && (cell[0].Visible? <==> |cell| == 2)
    requires forall e <- cell :: FromOctant(cfg, x0, y0, radius, e) && e.via == InOctant(k, dx, dy)
    requires |cell| == 2 <==> (InBounds(cfg.bounds, cell[0].x, cell[0].y) && rightSlope <= runNow.start
                               && cfg.getDistance(dx, dy) <= radius)
    requires (run1, push) == Advance(runNow, cell[|cell| - 1].blocked, leftSlope, rightSlope, dy, radius)
    requires !run.blocked && AnsweredClear(trace + cell)
    requires ClearSoFar(cfg, k, x0, y0, radius, run, dy, dx, trace, children, runNow)
    ensures ClearSoFar(cfg, k, x0, y0, radius, run, dy, dx + 1, trace + cell, children + push, run1)
  {
    assert AnsweredClear(trace) by {
      forall e | e in trace ensures e.Probe? ==> !e.blocked { assert e in trace + cell; }
    }
    assert cell[|cell| - 1] in trace + cell;
    if Admitted(cfg, k, x0, y0, radius, run.start, dx, dy) {
      assert cell[0] in cell;
      assert cell[0] == OctantVisible(cfg, k, x0, y0, dx, dy);
      assert cell[0] in trace + cell;
    }
    forall dx' | dy <= dx' < dx && Admitted(cfg, k, x0, y0, radius, run.start, dx', dy)
      ensures OctantVisible(cfg, k, x0, y0, dx', dy) in trace + cell
    {
      assert OctantVisible(cfg, k, x0, y0, dx', dy) in trace;
    }
  }

  /** One iteration of the row loop: visits cell dx and either stops the row
      there, changing nothing, or extends what the row has established by
      that cell. */
  method RowStep<T>(cfg: Config<T>, k: nat, x0: int, y0: int, radius: real, finish: real,
                    dx: int, dy: int, leftSlope: real, rightSlope: real,
                    run: Run, s0: T, s: T, trace: seq<Event>, children: seq<Frame>, runNow: Run)
    returns (s': T, trace': seq<Event>, children': seq<Frame>, run': Run, brk: bool)
    requires k < |cfg.directions|
    requires dy <= dx <= -1 && (-dy) as real <= radius && -dy <= Reach(radius)
    requires leftSlope == LeftSlope(dx, dy) && rightSlope == RightSlope(dx, dy)
    requires RowSoFar(cfg, k, x0, y0, radius, dy, dx - dy, run, s0, s, trace, children, runNow)
    ensures brk ==> && Breaks(cfg, k, x0, y0, runNow.start, finish, dx, dy)
                    && forall dx' :: dx <= dx' <= -1 ==> finish > LeftSlope(dx', dy)
    ensures brk ==> s' == s && trace' == trace && children' == children && run' == runNow
    ensures !brk ==> RowSoFar(cfg, k, x0, y0, radius, dy, dx + 1 - dy, run, s0, s', trace', children', run')
    ensures !brk && ClearSoFar(cfg, k, x0, y0, radius, run, dy, dx, trace, children, runNow) ==>
              ClearSoFar(cfg, k, x0, y0, radius, run, dy, dx + 1, trace', children', run')
  {
    var s1, cell, push, run1;
    s1, cell, push, run1, brk := VisitCell(cfg, k, x0, y0, radius, finish, dx, dy, leftSlope, rightSlope, runNow, s);
    if brk {
      BreakSkipsRest(finish, dx, dy);
      return s, trace, children, runNow, true;
    }
    CellAppend(cfg, k, x0, y0, radius, dx, dy, leftSlope, rightSlope, run, s0, s, trace, children, runNow, s1, cell, push, run1);
    s', trace', children', run' := s1, trace + cell, children + push, run1;
    if !run.blocked && AnsweredClear(trace') && ClearSoFar(cfg, k, x0, y0, radius, run, dy, dx, trace, children, runNow) {
      ClearStep(cfg, k, x0, y0, radius, dx, dy, leftSlope, rightSlope, run, runNow, trace, children, cell, push, run1);
    }
  }

  /** Once a cell's far corner is beyond the window's far edge, so is that of
      every later cell of the row: breaking there skips no visible cell. */
  lemma BreakSkipsRest(finish: real, dx: int, dy: int)
    requires dy <= dx <= -1 && finish > LeftSlope(dx, dy)
    ensures forall dx' :: dx <= dx' <= -1 ==> finish > LeftSlope(dx', dy)
  {
    forall dx' | dx < dx' <= -1
      ensures finish > LeftSlope(dx', dy)
    {
      SlopesDecreaseAlongRow(dx, dx', dy);
    }
  }

  /** What a row scan has established after its first n cells: the state is
      threaded through the trace and every query is consistent; every event
      belongs to the row; the queries are about cells dy .. dy + n - 1, in
      that order, each with at most one emission right before it; every push is a
      child of the row, at most one per cell; and a run entered in this row
      ends the trace with a blocked query. */
  ghost predicate RowSoFar<T>(cfg: Config<T>, k: nat, x0: int, y0: int, radius: real, dy: int, n: int,
                              run: Run, s0: T, s: T, trace: seq<Event>, children: seq<Frame>, run': Run)
  {
    && s == Replay(cfg.onVisible, s0, trace)
    && Consistent(cfg.isBlocked, cfg.onVisible, s0, trace)
    && (forall e <- trace :: InRows(cfg, x0, y0, radius, k, -dy, -dy, e))
    && QueriesFromLeft(Queries(trace), k, dy) && |Queries(trace)| == n
    && |trace| <= 2 * n && EmitsBeforeQuery(trace)
    && (forall c <- children :: c.row == 1 - dy && Child(c, radius, -dy))
    && |children| <= n
    && (!run.blocked && run'.blocked ==> EndsBlocked(trace, dy))
    && (AnsweredBlocked(trace) ==> run'.start == run.start && forall c <- children :: c.start == run.start)
    && (trace != [] ==> trace[|trace| - 1].Probe?)
    && ((-dy) as real < radius && trace != [] ==> (run'.blocked <==> EndsBlocked(trace, dy)))
  }

  /** The row invariants carry over one visited cell: its events belong to the
      row, its query is the next one from the left, the frame it may push is a
      child of the row, and a run it enters ends the trace with a blocked query. */
  lemma CellAppend<T>(cfg: Config<T>, k: nat, x0: int, y0: int, radius: real, dx: int, dy: int,
                      leftSlope: real, rightSlope: real, run: Run, s0: T, s: T, trace: seq<Event>,
                      children: seq<Frame>, runNow: Run, s1: T, cell: seq<Event>, push: seq<Frame>, run': Run)
    requires dy <= dx <= -1 && -dy <= Reach(radius) && (-dy) as real <= radius
    requires leftSlope == LeftSlope(dx, dy)
    requires RowSoFar(cfg, k, x0, y0, radius, dy, dx - dy, run, s0, s, trace, children, runNow)
    requires s1 == Replay(cfg.onVisible, s, cell) && Consistent(cfg.isBlocked, cfg.onVisible, s, cell)
    requires forall e <- cell :: FromOctant(cfg, x0, y0, radius, e) && e.via == InOctant(k, dx, dy)
    requires cell != [] && cell[|cell| - 1].Probe?
    requires |cell| <= 2 && Queries(cell) == [cell[|cell| - 1]]
    requires (run', push) == Advance(runNow, cell[|cell| - 1].blocked, leftSlope, rightSlope, dy, radius)
    ensures RowSoFar(cfg, k, x0, y0, radius, dy, dx + 1 - dy, run, s0, s1, trace + cell, children + push, run')
  {
    ReplayConcat(cfg.onVisible, s0, trace, cell);
    ConsistentConcat(cfg.isBlocked, cfg.onVisible, s0, trace, cell);
    EventsAppend(cfg, k, x0, y0, radius, dy, trace, cell);
    CellEmitsBeforeQuery(cell);
    EmitsBeforeQueryConcat(trace, cell);
    QueriesStep(trace, cell, k, dx, dy);
    PushAppend(radius, dx, dy, leftSlope, rightSlope, children, runNow, cell[|cell| - 1].blocked, push, run');
    var last := cell[|cell| - 1];
    assert last in cell;
    LastAnswer(trace, cell, dy, radius, runNow, leftSlope, rightSlope, push, run');
    if AnsweredBlocked(trace + cell) {
      assert last in trace + cell;
      assert AnsweredBlocked(trace) && last.blocked;
      BlockedKeepsStart(run.start, children, runNow, leftSlope, rightSlope, dy, radius, push, run');
    }
  }

  /** A cell's events, at most one emission and then its query, all about the
      same cell, have the emission right before the query. */
  lemma CellEmitsBeforeQuery(cell: seq<Event>)
    requires 1 <= |cell| <= 2 && cell[|cell| - 1].Probe?
    requires forall e <- cell :: e.via == cell[0].via
    ensures EmitsBeforeQuery(cell)
  {
    assert cell[|cell| - 1] in cell;
  }

  /** The run state after a cell follows that cell's answer, which is the last
      event of the row so far. */
  lemma LastAnswer(trace: seq<Event>, cell: seq<Event>, dy: int, radius: real, run: Run,
                   leftSlope: real, rightSlope: real, push: seq<Frame>, run': Run)
    requires cell != [] && cell[|cell| - 1].Probe?
    requires cell[|cell| - 1].via.InOctant? && cell[|cell| - 1].via.dy == dy
    requires (run', push) == Advance(run, cell[|cell| - 1].blocked, leftSlope, rightSlope, dy, radius)
    ensures (trace + cell)[|trace + cell| - 1].Probe?
    ensures run'.blocked ==> EndsBlocked(trace + cell, dy)
    ensures (-dy) as real < radius ==> (run'.blocked <==> EndsBlocked(trace + cell, dy))
  {
    assert (trace + cell)[|trace + cell| - 1] == cell[|cell| - 1];
  }

  /** A blocked answer never ends a run, so it leaves the window's near edge
      where it was, and a frame it pushes starts there. */
  lemma BlockedKeepsStart(start: real, children: seq<Frame>, run: Run, leftSlope: real, rightSlope: real,
                          dy: int, radius: real, push: seq<Frame>, run': Run)
    requires run.start == start && forall c <- children :: c.start == start
    requires (run', push) == Advance(run, true, leftSlope, rightSlope, dy, radius)
    ensures run'.start == start && forall c <- children + push :: c.start == start
  {
  }

  /** The events of one more cell of the row still belong to the row. */
  lemma EventsAppend<T>(cfg: Config<T>, k: nat, x0: int, y0: int, radius: real, dy: int,
                        trace: seq<Event>, cell: seq<Event>)
    requires forall e <- trace :: InRows(cfg, x0, y0, radius, k, -dy, -dy, e)
    requires forall e <- cell :: FromOctant(cfg, x0, y0, radius, e) && e.via.k == k && e.via.dy == dy
    ensures forall e <- trace + cell :: InRows(cfg, x0, y0, radius, k, -dy, -dy, e)
  {
  }

  /** The frame one cell may push is a child of the row: one row deeper,
      closing at the cell's left slope. */
  lemma PushAppend(radius: real, dx: int, dy: int, leftSlope: real, rightSlope: real, children: seq<Frame>,
                   run: Run, blocked: bool, push: seq<Frame>, run': Run)
    requires dy <= dx <= -1 && -dy <= Reach(radius) && (-dy) as real <= radius
    requires leftSlope == LeftSlope(dx, dy)
    requires forall c <- children :: c.row == 1 - dy && Child(c, radius, -dy)
    requires (run', push) == Advance(run, blocked, leftSlope, rightSlope, dy, radius)
    ensures forall c <- children + push :: c.row == 1 - dy && Child(c, radius, -dy)
    ensures |push| <= 1
  {
    if push != [] {
      assert ClosesAt(push[0], dx);
    }
  }

  /** A cell with one query, about cell dx, extends queries of cells dy .. dx - 1. */
  lemma QueriesStep(trace: seq<Event>, cell: seq<Event>, k: nat, dx: int, dy: int)
    requires QueriesFromLeft(Queries(trace), k, dy) && |Queries(trace)| == dx - dy
    requires cell != [] && Queries(cell) == [cell[|cell| - 1]] && cell[|cell| - 1].via == InOctant(k, dx, dy)
    ensures QueriesFromLeft(Queries(trace + cell), k, dy) && |Queries(trace + cell)| == dx + 1 - dy
    ensures Queries(trace + cell) == Queries(trace) + [cell[|cell| - 1]]
  {
    QueriesConcat(trace, cell);
    var q := Queries(trace + cell);
    assert q == Queries(trace) + [cell[|cell| - 1]];
    forall j | 0 <= j < |q|
      ensures q[j].via == InOctant(k, dy + j, dy)
    {
      if j < dx - dy {
        assert q[j] == Queries(trace)[j];
      }
    }
  }

  /** Scans the rows of one popped frame of octant k.
      Returns the state after the frame, the events it produced, the frames
      it pushed, in push order, and the deepest row it scanned. */
  method ScanFrame<T>(cfg: Config<T>, k: nat, x0: int, y0: int, radius: real, f: Frame, s0: T)
    returns (s: T, trace: seq<Event>, children: seq<Frame>, depth: int)
    requires k < |cfg.directions|
    requires f.row >= 1
    ensures s == Replay(cfg.onVisible, s0, trace)
    ensures Consistent(cfg.isBlocked, cfg.onVisible, s0, trace)
    // every emission is followed at once by the query about the same cell
    ensures EmitsBeforeQuery(trace)
    // rows f.row .. depth are scanned, never one past the radius
    ensures forall e <- trace :: InRows(cfg, x0, y0, radius, k, f.row, depth, e)
    ensures f.row - 1 <= depth && (depth <= Reach(radius) || depth == f.row - 1)
    // an empty (reversed) window is discarded: no emission, no oracle query, no push
    ensures f.start < f.finish ==> s == s0 && trace == [] && children == [] && depth == f.row - 1
    // a window within the octant is scanned from its first row when the radius admits it,
    // and in every scanned row the first cell (-r, -r) is queried
    ensures f.start >= f.finish && f.row as real <= radius ==> depth >= f.row
    ensures f.start >= f.finish && f.finish <= 1.0 ==> forall r :: f.row <= r <= depth ==> RowProbed(trace, k, r)
    // every push is deeper than the frame, short of the radius, and bounded by
    // the left slope of the occluding cell
    ensures forall c <- children :: Child(c, radius, f.row)
    ensures |children| <= Reach(radius) * Reach(radius)
    // with an integer radius no push lies past the radius
    ensures radius == radius.Floor as real ==> forall c <- children :: c.row as real <= radius
    // short of the radius, the scan stops only after a row that ends inside a blocked run
    ensures f.start >= f.finish && (depth + 1) as real <= radius ==> EndsBlocked(trace, -depth)
    // pushes come from the scanned rows, so they are at most one row deeper than `depth`
    ensures forall c <- children :: c.row <= depth + 1
    // when every answer is blocked, the first row's last query ends the frame,
    // and every push starts at the frame's own near edge
    ensures f.start >= f.finish && f.finish <= 1.0 && f.row as real <= radius && AnsweredBlocked(trace) ==>
              depth == f.row && forall c <- children :: c.start == f.start
    // when every answer is clear, a window reaching down to slope 0 pushes
    // nothing, and every row it scanned had every cell that the bounds, the
    // window's near edge and the radius admit emitted
    ensures f.start >= f.finish && f.finish <= 0.0 && AnsweredClear(trace) ==>
              children == [] && forall r :: f.row <= r <= depth ==> RowEmitted(cfg, k, x0, y0, radius, f.start, r, trace)
  {
    s, trace, children, depth := s0, [], [], f.row - 1;
    if f.start >= f.finish {
      var run := Run(f.start, 0.0, false);
      var dy := -f.row;
      ghost var R := Reach(radius);
      while dy as real >= -radius && !run.blocked
        invariant FrameSoFar(cfg, k, x0, y0, radius, f, R, dy, s0, s, trace, children, run)
        decreases R + dy + 1
      {
        s, trace, children, run := FrameRow(cfg, k, x0, y0, radius, f, R, dy, s0, s, trace, children, run);
        dy := dy - 1;
      }
      depth := -dy - 1;
      ReachBound(f.row, radius);
      forall c | c in children && radius == radius.Floor as real
        ensures c.row as real <= radius
      {
        IntegerRadiusBoundsRow(c.row, radius);
      }
      if f.row < -dy {
        MulMonotonic(-dy - f.row, R, R);
      }
    }
  }

  /** What a frame scan has established before row -dy: the state is threaded
      through the trace and every query is consistent; the events belong to
      rows f.row .. -dy - 1 and, in a window ending at slope 1 or below, each of
      those rows had its first cell queried; the pushes are children of the
      frame from those rows, at most R per row; a blocked run ends the trace
      with a blocked query of the last row; and `StopsAtFirstRow`. */
  ghost predicate FrameSoFar<T>(cfg: Config<T>, k: nat, x0: int, y0: int, radius: real, f: Frame, R: nat, dy: int,
                                s0: T, s: T, trace: seq<Event>, children: seq<Frame>, run: Run)
  {
    && f.row <= -dy && (f.row < -dy ==> -dy <= R + 1)
    && (-dy == f.row ==> run == Run(f.start, 0.0, false) && trace == [] && children == [])
    && s == Replay(cfg.onVisible, s0, trace)
    && Consistent(cfg.isBlocked, cfg.onVisible, s0, trace)
    && EmitsBeforeQuery(trace)
    && (forall e <- trace :: InRows(cfg, x0, y0, radius, k, f.row, -dy - 1, e))
    && (f.finish <= 1.0 ==> forall r :: f.row <= r <= -dy - 1 ==> RowProbed(trace, k, r))
    && (forall c <- children :: Child(c, radius, f.row) && c.row <= -dy)
    && |children| <= (-dy - f.row) * R
    && (run.blocked ==> EndsBlocked(trace, dy + 1))
    && StopsAtFirstRow(f, radius, -dy, run, trace, children)
    && k < |cfg.directions| && FrameClear(cfg, k, x0, y0, radius, f, -dy - 1, trace, children, run)
  }

  /** While every answer is clear, a window reaching down to slope 0 has kept
      its near edge and pushed nothing, and every row f.row .. last has had
      every cell that the bounds, the near edge and the radius admit emitted. */
  predicate FrameClear<T>(cfg: Config<T>, k: nat, x0: int, y0: int, radius: real, f: Frame, last: int,
                          trace: seq<Event>, children: seq<Frame>, run: Run)
    requires k < |cfg.directions|
  {
    f.finish <= 0.0 && AnsweredClear(trace) ==>
      && run == Run(f.start, 0.0, false) && children == []
      && forall r :: f.row <= r <= last ==> RowEmitted(cfg, k, x0, y0, radius, f.start, r, trace)
  }

  /** `FrameClear` carries over one scanned row: with every answer clear the
      row neither moves the near edge nor pushes, and a window reaching down
      to slope 0 never breaks (every left slope is positive), so the whole row
      is emitted. */
  lemma ClearRowStep<T>(cfg: Config<T>, k: nat, x0: int, y0: int, radius: real, f: Frame, dy: int,
                        trace: seq<Event>, children: seq<Frame>, run: Run,
                        row: seq<Event>, pushed: seq<Frame>, run1: Run)
    requires k < |cfg.directions| && dy <= -1 && f.row <= -dy && f.finish <= 0.0
    requires FrameClear(cfg, k, x0, y0, radius, f, -dy - 1, trace, children, run)
    requires dy + |Queries(row)| <= 0
    requires dy + |Queries(row)| < 0 ==> f.finish > LeftSlope(dy + |Queries(row)|, dy)
    requires ClearSoFar(cfg, k, x0, y0, radius, run, dy, dy + |Queries(row)|, row, pushed, run1)
    requires AnsweredClear(trace + row)
    ensures FrameClear(cfg, k, x0, y0, radius, f, -dy, trace + row, children + pushed, run1)
  {
    assert AnsweredClear(trace) && AnsweredClear(row);
    var hi := dy + |Queries(row)|;
    if hi < 0 {
      SlopeOrder(hi, dy);
      assert false;
    }
    forall r | f.row <= r <= -dy
      ensures RowEmitted(cfg, k, x0, y0, radius, f.start, r, trace + row)
    {
      if r < -dy {
        assert RowEmitted(cfg, k, x0, y0, radius, f.start, r, trace);
      }
    }
    assert children + pushed == [];
  }

  /** One iteration of the frame loop: scans row -dy and extends what the
      frame has established by that row. */
  method FrameRow<T>(cfg: Config<T>, k: nat, x0: int, y0: int, radius: real, f: Frame, ghost R: nat, dy: int,
                     ghost s0: T, s: T, trace: seq<Event>, children: seq<Frame>, run: Run)
    returns (s': T, trace': seq<Event>, children': seq<Frame>, run': Run)
    requires k < |cfg.directions| && f.row >= 1 && f.start >= f.finish && R == Reach(radius)
    requires dy as real >= -radius && !run.blocked
    requires FrameSoFar(cfg, k, x0, y0, radius, f, R, dy, s0, s, trace, children, run)
    ensures FrameSoFar(cfg, k, x0, y0, radius, f, R, dy - 1, s0, s', trace', children', run')
  {
    ReachBound(-dy, radius);
    var row, pushed;
    s', row, pushed, run' := ScanRow(cfg, k, x0, y0, radius, f.finish, dy, run, s);
    EmitsBeforeQueryConcat(trace, row);
    ReplayConcat(cfg.onVisible, s0, trace, row);
    ConsistentConcat(cfg.isBlocked, cfg.onVisible, s0, trace, row);
    RowAppend(cfg, k, x0, y0, radius, f.row, dy, R, trace, row, children, pushed);
    if f.finish <= 1.0 {
      RowsProbedAppend(trace, row, k, f.row, dy);
      assert row[|row| - 1] in row;
      FirstRowStep(f, radius, dy, run, trace, children, row, pushed, run');
    }
    if f.finish <= 0.0 && AnsweredClear(trace + row) {
      ClearRowStep(cfg, k, x0, y0, radius, f, dy, trace, children, run, row, pushed, run');
    }
    trace', children' := trace + row, children + pushed;
  }

  /** Once the frame's rows beyond its first have been reached, some answer
      so far was clear: while every answer is blocked, the scan is still at
      its first row, or has just left it inside a blocked run (short of the
      radius), with every push starting at the frame's near edge. `next` is
      the row to scan next. */
  predicate StopsAtFirstRow(f: Frame, radius: real, next: int, run: Run, trace: seq<Event>, children: seq<Frame>)
  {
    f.finish <= 1.0 && next > f.row && AnsweredBlocked(trace) ==>
      && next == f.row + 1
      && (f.row as real < radius ==> run.blocked)
      && forall c <- children :: c.start == f.start
  }

  /** `StopsAtFirstRow` carries over one scanned row: the first row, every
      answer blocked and short of the radius, ends in a blocked run; any later
      row, reached only past a clear answer, changes nothing. */
  lemma FirstRowStep(f: Frame, radius: real, dy: int, run: Run, trace: seq<Event>, children: seq<Frame>,
                     row: seq<Event>, pushed: seq<Frame>, run1: Run)
    requires f.finish <= 1.0 && f.row <= -dy && (-dy) as real <= radius && !run.blocked
    requires -dy == f.row ==> run == Run(f.start, 0.0, false) && trace == [] && children == []
    requires StopsAtFirstRow(f, radius, -dy, run, trace, children)
    requires row != [] && row[|row| - 1].Probe?
    requires row[|row| - 1].via.InOctant? && row[|row| - 1].via.dy == dy
    requires (-dy) as real < radius ==> (run1.blocked <==> EndsBlocked(row, dy))
    requires AnsweredBlocked(row) ==> forall c <- pushed :: c.start == run.start
    ensures StopsAtFirstRow(f, radius, 1 - dy, run1, trace + row, children + pushed)
  {
    if AnsweredBlocked(trace + row) {
      assert AnsweredBlocked(trace) && AnsweredBlocked(row);
      assert row[|row| - 1] in row;
    }
  }

  /** The frame invariants carry over one scanned row: its events extend the
      rows scanned so far, its pushes are children of the frame and add at most
      R to the count, and a row that ends blocked ends the frame's trace blocked. */
  lemma RowAppend<T>(cfg: Config<T>, k: nat, x0: int, y0: int, radius: real, row: int, dy: int, R: nat,
                     trace: seq<Event>, cells: seq<Event>, children: seq<Frame>, pushed: seq<Frame>)
    requires row <= -dy <= R
    requires forall e <- trace :: InRows(cfg, x0, y0, radius, k, row, -dy - 1, e)
    requires forall e <- cells :: InRows(cfg, x0, y0, radius, k, -dy, -dy, e)
    requires forall c <- children :: Child(c, radius, row)
    requires forall c <- pushed :: c.row == 1 - dy && Child(c, radius, -dy)
    requires |children| <= (-dy - row) * R && |pushed| <= -dy
    requires forall c <- children :: c.row <= -dy
    ensures forall e <- trace + cells :: InRows(cfg, x0, y0, radius, k, row, -dy, e)
    ensures forall c <- children + pushed :: c.row <= 1 - dy
    ensures forall c <- children + pushed :: Child(c, radius, row)
    ensures |children + pushed| <= (-dy + 1 - row) * R
    ensures EndsBlocked(cells, dy) ==> EndsBlocked(trace + cells, dy)
  {
    MulSuccessor(-dy - row, R);
    if cells != [] {
      assert (trace + cells)[|trace + cells| - 1] == cells[|cells| - 1];
    }
  }

  /** A row whose first cell was queried extends the run of rows, from `row`
      on, whose first cells were all queried. */
  lemma RowsProbedAppend(trace: seq<Event>, cells: seq<Event>, k: nat, row: int, dy: int)
    requires forall r :: row <= r <= -dy - 1 ==> RowProbed(trace, k, r)
    requires |Queries(cells)| >= 1 && QueriesFromLeft(Queries(cells), k, dy)
    ensures forall r :: row <= r <= -dy ==> RowProbed(trace + cells, k, r)
  {
    QueriesAreProbes(cells);
    var first := Queries(cells)[0];
    assert first in cells && first.Probe? && first.via == InOctant(k, dy, dy);
    forall r | row <= r <= -dy
      ensures RowProbed(trace + cells, k, r)
    {
      if r < -dy {
        assert RowProbed(trace, k, r);
        var e :| e in trace && e.Probe? && e.via == InOctant(k, -r, -r);
        assert e in trace + cells;
      } else {
        assert first in trace + cells;
      }
    }
  }

  /** Scans octant k from the initial frame (row 1, window from slope 0 up
      to slope 1) until the stack of pending frames is empty. Also returns
      `diagonal`, the deepest row the initial frame scanned. */
  method ScanOctant<T>(cfg: Config<T>, k: nat, x0: int, y0: int, radius: real, s0: T)
    returns (s: T, trace: seq<Event>, diagonal: int)
    requires k < |cfg.directions|
    ensures s == Replay(cfg.onVisible, s0, trace)
    ensures Consistent(cfg.isBlocked, cfg.onVisible, s0, trace)
    // every emission is followed at once by the query about the same cell
    ensures EmitsBeforeQuery(trace)
    ensures forall e <- trace :: FromOctant(cfg, x0, y0, radius, e) && e.via.k == k
    ensures radius < 1.0 ==> trace == []
    // the initial frame walks down the diagonal: the cells (-r, -r) of rows
    // 1 .. diagonal are all queried, and the walk reaches the radius unless
    // its last row had a query answered blocked
    ensures 0 <= diagonal <= Reach(radius) && (radius >= 1.0 ==> diagonal >= 1)
    ensures forall r :: 1 <= r <= diagonal ==> RowProbed(trace, k, r)
    ensures (diagonal + 1) as real <= radius ==> BlockedInRow(trace, k, diagonal)
    // when every answer is blocked the octant is occluded at once: only its
    // first cell (-1, -1) is emitted or queried
    ensures AnsweredBlocked(trace) ==> forall e <- trace :: e.via == InOctant(k, -1, -1)
    // when every answer is clear the octant is open: every cell of rows
    // 1 .. Reach(radius) that is in bounds and within the radius is emitted
    ensures AnsweredClear(trace) ==> OctantEmitted(cfg, k, x0, y0, radius, trace)
  {
    var initial := Frame(1, 1.0, 0.0);
    var first, stack;
    s, first, stack, diagonal := ScanFrame(cfg, k, x0, y0, radius, initial, s0);
    trace := first;
    if (diagonal + 1) as real <= radius {
      assert first[|first| - 1] in first;
    }
    ghost var reach := Reach(radius);
    ghost var width := reach * reach;
    // every answer of the initial frame blocked: the frames it pushed are all empty windows
    ghost var quiet := radius >= 1.0 && AnsweredBlocked(first);
    if quiet {
      OccludedWindows(stack, radius);
    }
    // every answer of the initial frame clear: it pushed nothing
    ghost var open := AnsweredClear(first);
    while |stack| > 0
      invariant quiet ==> trace == first && forall f <- stack :: f.start < f.finish
      invariant open ==> trace == first && stack == []
      invariant forall f <- stack :: f.row >= 1
      invariant OctantSoFar(cfg, k, x0, y0, radius, s0, s, first, trace)
      decreases Load(reach, width, stack)
    {
      var f := stack[|stack| - 1];
      var rest := stack[..|stack| - 1];
      assert stack == rest + [f];
      LoadConcat(reach, width, rest, [f]);
      var s1, frameTrace, children, depth := ScanFrame(cfg, k, x0, y0, radius, f, s);
      PopDecreases(reach, width, f, children);
      LoadConcat(reach, width, rest, children);
      FrameAppend(cfg, k, x0, y0, radius, s0, s, first, trace, f.row, depth, s1, frameTrace);
      s, trace, stack := s1, trace + frameTrace, rest + children;
    }
    PrefixKeepsRows(first, trace, k, diagonal);
    if AnsweredClear(trace) {
      OctantRowsEmitted(cfg, k, x0, y0, radius, trace);
    }
  }

  /** What the octant scan has established after some frames: the state is
      threaded through the trace, every query is consistent, every emission
      is followed at once by its query, every event is a cell of octant k, and
      the initial frame's events come first. */
  ghost predicate OctantSoFar<T>(cfg: Config<T>, k: nat, x0: int, y0: int, radius: real,
                                 s0: T, s: T, first: seq<Event>, trace: seq<Event>)
  {
    && s == Replay(cfg.onVisible, s0, trace)
    && Consistent(cfg.isBlocked, cfg.onVisible, s0, trace)
    && EmitsBeforeQuery(trace)
    && (forall e <- trace :: FromOctant(cfg, x0, y0, radius, e) && e.via.k == k)
    && |first| <= |trace| && trace[..|first|] == first
  }

  /** `OctantSoFar` carries over one more scanned frame. */
  lemma FrameAppend<T>(cfg: Config<T>, k: nat, x0: int, y0: int, radius: real, s0: T, s: T,
                       first: seq<Event>, trace: seq<Event>, row: int, depth: int, s1: T, frameTrace: seq<Event>)
    requires OctantSoFar(cfg, k, x0, y0, radius, s0, s, first, trace)
    requires s1 == Replay(cfg.onVisible, s, frameTrace)
    requires Consistent(cfg.isBlocked, cfg.onVisible, s, frameTrace)
    requires EmitsBeforeQuery(frameTrace)
    requires forall e <- frameTrace :: InRows(cfg, x0, y0, radius, k, row, depth, e)
    ensures OctantSoFar(cfg, k, x0, y0, radius, s0, s1, first, trace + frameTrace)
  {
    EmitsBeforeQueryConcat(trace, frameTrace);
    ReplayConcat(cfg.onVisible, s0, trace, frameTrace);
    ConsistentConcat(cfg.isBlocked, cfg.onVisible, s0, trace, frameTrace);
    assert (trace + frameTrace)[..|first|] == trace[..|first|];
  }

  /** The frames pushed from the first row of the initial frame, starting at
      its near edge (slope 1), end at the left slope of cell (-1, -1), which is
      3: their windows are empty. */
  lemma OccludedWindows(stack: seq<Frame>, radius: real)
    requires forall c <- stack :: Child(c, radius, 1) && c.row <= 2 && c.start == 1.0
    ensures forall c <- stack :: c.start < c.finish
  {
    forall c | c in stack
      ensures c.start < c.finish
    {
      var dx :| ClosesAt(c, dx);
      assert dx == -1 && c.finish == LeftSlope(-1, -1);
    }
  }

  /** What a prefix of the trace shows about queried rows, the whole trace shows too. */
  lemma PrefixKeepsRows(first: seq<Event>, trace: seq<Event>, k: nat, d: int)
    requires |first| <= |trace| && trace[..|first|] == first
    requires forall r :: 1 <= r <= d ==> RowProbed(first, k, r)
    ensures forall r :: 1 <= r <= d ==> RowProbed(trace, k, r)
    ensures BlockedInRow(first, k, d) ==> BlockedInRow(trace, k, d)
    ensures AnsweredBlocked(trace) ==> AnsweredBlocked(first)
    ensures AnsweredClear(trace) ==> AnsweredClear(first)
  {
    forall e | e in first
      ensures e in trace
    {
      var i :| 0 <= i < |first| && first[i] == e;
      assert trace[i] == e;
    }
    forall r | 1 <= r <= d
      ensures RowProbed(trace, k, r)
    {
      assert RowProbed(first, k, r);
      var e :| e in first && e.Probe? && e.via == InOctant(k, -r, -r);
      assert e in trace;
    }
    if BlockedInRow(first, k, d) {
      var e :| e in first && e.Probe? && e.blocked && e.via.InOctant? && e.via.k == k && e.via.dy == -d;
      assert e in trace;
    }
  }

  /** Termination measure of the stack. A frame below `reach` pushes at most
      `width` frames, each strictly deeper; a frame beyond it pushes none.
      Budget(row) bounds the number of pops a frame at `row` accounts for,
      itself included. */
  function Budget(reach: nat, width: nat, row: int): nat
    decreases if row <= reach then reach + 1 - row else 0
  {
    if row > reach then 1 else 1 + width * Budget(reach, width, row + 1)
  }

  /** The measure of a whole stack: the budgets of its frames, added up. */
  function Load(reach: nat, width: nat, stack: seq<Frame>): nat
    decreases |stack|
  {
    if stack == [] then 0
    else Load(reach, width, stack[..|stack| - 1]) + Budget(reach, width, stack[|stack| - 1].row)
  }

  /** Deeper frames never have a larger budget. */
  lemma {:induction false} BudgetAntitone(reach: nat, width: nat, row: int, row': int)
    requires row <= row'
    ensures Budget(reach, width, row') <= Budget(reach, width, row)
    decreases row' - row
  {
    if row < row' {
      BudgetAntitone(reach, width, row + 1, row');
      if row <= reach && width >= 1 {
        var b := Budget(reach, width, row + 1);
        assert width * b >= b;
      }
    }
  }

  lemma {:induction false} LoadConcat(reach: nat, width: nat, a: seq<Frame>, b: seq<Frame>)
    ensures Load(reach, width, a + b) == Load(reach, width, a) + Load(reach, width, b)
    decreases |b|
  {
    if b == [] {
      assert a + b == a;
    } else {
      var b' := b[..|b| - 1];
      assert (a + b)[..|a + b| - 1] == a + b';
      LoadConcat(reach, width, a, b');
    }
  }

  /** Frames no shallower than `row` weigh at most Budget(row) each. */
  lemma {:induction false} LoadAtMost(reach: nat, width: nat, row: int, frames: seq<Frame>)
    requires forall c <- frames :: c.row >= row
    ensures Load(reach, width, frames) <= |frames| * Budget(reach, width, row)
    decreases |frames|
  {
    if frames != [] {
      var prefix, last := frames[..|frames| - 1], frames[|frames| - 1];
      var b, n := Budget(reach, width, row), |prefix|;
      LoadAtMost(reach, width, row, prefix);
      BudgetAntitone(reach, width, row, last.row);
      MulSuccessor(n, b);
    }
  }

  /** Replacing a popped frame by the frames it pushes lowers the measure. */
  lemma PopDecreases(reach: nat, width: nat, f: Frame, children: seq<Frame>)
    requires forall c <- children :: f.row < c.row <= reach + 1
    requires |children| <= width
    ensures Load(reach, width, children) < Budget(reach, width, f.row)
  {
    if f.row <= reach {
      LoadAtMost(reach, width, f.row + 1, children);
      var b := Budget(reach, width, f.row + 1);
      MulMonotonic(|children|, width, b);
      var room := width * b;
      assert Budget(reach, width, f.row) == 1 + room;
    }
  }

  lemma MulSuccessor(n: nat, b: nat)
    ensures (n + 1) * b == n * b + b
  {
  }

  lemma MulMonotonic(a: int, c: int, b: nat)
    requires a <= c
    ensures a * b <= c * b
  {
    assert (c - a) * b >= 0;
    assert c * b - a * b == (c - a) * b;
  }
}

=== FILE: slopes.dfy ===
/**
 Slope bookkeeping of the octant scan, in exact rational arithmetic.

 In row dy (dy <= -1) the scanner starts from leftSlope = (dy - 1.5)/(dy + 0.5)
 and rightSlope = (dy - 0.5)/(dy - 0.5) and, before looking at the cell dx,
 adds 1/(dy + 0.5) and 1/(dy - 0.5) respectively. The closed forms below are
 what those running sums equal at cell dx.
 */
module Slopes {

  /** Slope of the far (left) corner of cell (dx, dy) as seen from the origin. */
  function LeftSlope(dx: int, dy: int): real
    requires dy <= -1
  {
    (dx as real - 0.5) / (dy as real + 0.5)
  }

  /** Slope of the near (right) corner of cell (dx, dy) as seen from the origin. */
  function RightSlope(dx: int, dy: int): real
    requires dy <= -1
  {
    (dx as real + 0.5) / (dy as real - 0.5)
  }

  /** A half-integer is never zero, so neither reciprocal of a row divides by zero. */
  lemma HalfOffsetsNonZero(dy: int)
    ensures dy as real + 0.5 != 0.0 && dy as real - 0.5 != 0.0
  {
  }

  /** The row's starting values are the closed forms one step before the first cell dx = dy. */
  lemma RowStartClosedForm(dy: int)
    requires dy <= -1
    ensures (dy as real - 1.5) * (1.0 / (dy as real + 0.5)) == LeftSlope(dy - 1, dy)
    ensures (dy as real - 0.5) * (1.0 / (dy as real - 0.5)) == RightSlope(dy - 1, dy)
  {
    var p, m := dy as real + 0.5, dy as real - 0.5;
    assert (dy as real - 1.5) * (1.0 / p) == (dy as real - 1.5) / p;
    assert (dy as real - 0.5) * (1.0 / m) == (dy as real - 0.5) / m;
  }

  /** One per-cell increment moves both running slopes from cell dx - 1 to cell dx. */
  lemma SlopeStep(dx: int, dy: int)
    requires dy <= -1
    ensures LeftSlope(dx - 1, dy) + 1.0 / (dy as real + 0.5) == LeftSlope(dx, dy)
    ensures RightSlope(dx - 1, dy) + 1.0 / (dy as real - 0.5) == RightSlope(dx, dy)
  {
    var p, m := dy as real + 0.5, dy as real - 0.5;
    var a := dx as real;
    assert (a - 1.5) / p + 1.0 / p == ((a - 1.5) + 1.0) / p;
    assert (a - 0.5) / m + 1.0 / m == ((a - 0.5) + 1.0) / m;
  }

  /** Inside the canonical octant both slopes are positive, the right one below 1 and below the left one. */
  lemma SlopeOrder(dx: int, dy: int)
    requires dy <= dx <= -1
    ensures 0.0 < RightSlope(dx, dy) < 1.0
    ensures RightSlope(dx, dy) < LeftSlope(dx, dy)
  {
    var a, b := dx as real, dy as real;
    var p, m := b + 0.5, b - 0.5;
    assert p * m > 0.0;
    var l, r := (a - 0.5) / p, (a + 0.5) / m;
    assert l * p == a - 0.5;
    assert r * m == a + 0.5;
    assert r > 0.0;
    assert r < 1.0;
    // r < l  <==  (a + 0.5) * p < (a - 0.5) * m  <==  a + b < 0
    assert (a + 0.5) * p < (a - 0.5) * m;
    assert r * (p * m) < l * (p * m) by {
      assert r * (p * m) == (a + 0.5) * p;
      assert l * (p * m) == (a - 0.5) * m;
    }
  }

  /** Both slopes strictly decrease along a row, so once the window's finish exceeds a cell's left slope it exceeds every later one: this justifies the scanner's early break. */
  lemma SlopesDecreaseAlongRow(dx: int, dx': int, dy: int)
    requires dy <= dx < dx' <= -1
    ensures LeftSlope(dx', dy) < LeftSlope(dx, dy)
    ensures RightSlope(dx', dy) < RightSlope(dx, dy)
  {
    var p, m := dy as real + 0.5, dy as real - 0.5;
    var gap := (dx' - dx) as real;
    assert LeftSlope(dx', dy) - LeftSlope(dx, dy) == gap / p;
    assert RightSlope(dx', dy) - RightSlope(dx, dy) == gap / m;
    QuotientByNegative(gap, p);
    QuotientByNegative(gap, m);
  }

  /** A positive amount divided by a negative one is negative. */
  lemma QuotientByNegative(a: real, p: real)
    requires a > 0.0 && p < 0.0
    ensures a / p < 0.0
  {
    assert (a / p) * p == a;
  }

  /** Only the first cell of a row (dx = dy) has its far corner above slope 1,
      so a window ending at slope 1 or below never ends a row at its first cell. */
  lemma FirstCellOnly(dx: int, dy: int)
    requires dy <= dx <= -1
    ensures LeftSlope(dx, dy) > 1.0 <==> dx == dy
  {
    var p := dy as real + 0.5;
    var gap := (dx - dy - 1) as real;
    assert LeftSlope(dx, dy) - 1.0 == gap / p;
    if dx == dy {
      QuotientByNegative(1.0, p);
      assert gap / p == -(1.0 / p);
    } else if dx > dy + 1 {
      QuotientByNegative(gap, p);
    }
  }
}

=== FILE: trace.dfy ===
/**
 The observable record of one scan: every visibility-hook call and every
 opacity-oracle query, in the order the scanner makes them. The folded state
 at any point is the initial state replayed through the visibility hook over
 the events so far; oracle queries leave the state alone.
 */
module Trace {

  /** The four cardinal rays, in the order they are cast. */
  datatype Axis = PlusX | MinusX | PlusY | MinusY

  /** Where an event comes from: the origin, a cell (dx, dy) of the canonical
      octant scanned through direction k, or one of the cardinal rays. */
  datatype Via = AtOrigin | InOctant(k: nat, dx: int, dy: int) | OnRay(axis: Axis)

  datatype Event =
    | Visible(x: int, y: int, distance: real, via: Via)
    | Probe(x: int, y: int, blocked: bool, via: Via)

  /** The effect of one event on the folded state. */
  function Step<T>(onVisible: (T, int, int, real) -> T, s: T, e: Event): T
  {
    match e
    case Visible(x, y, d, _) => onVisible(s, x, y, d)
    case Probe(_, _, _, _) => s
  }

  /** The folded state after the events of `trace`, starting from `s`. */
  function Replay<T>(onVisible: (T, int, int, real) -> T, s: T, trace: seq<Event>): T
    decreases |trace|
  {
    if trace == [] then s
    else Step(onVisible, Replay(onVisible, s, trace[..|trace| - 1]), trace[|trace| - 1])
  }

  /** Every oracle query in `trace` was answered against the folded state current at that query. */
  ghost predicate Consistent<T>(isBlocked: (T, int, int) -> bool, onVisible: (T, int, int, real) -> T,
                                s: T, trace: seq<Event>)
    decreases |trace|
  {
    trace == [] ||
      var prefix, e := trace[..|trace| - 1], trace[|trace| - 1];
      && Consistent(isBlocked, onVisible, s, prefix)
      && (e.Probe? ==> e.blocked == isBlocked(Replay(onVisible, s, prefix), e.x, e.y))
  }

  /** The recursive definition read as a statement about each position: the i-th query saw the state after the first i events. */
  lemma {:induction false} ConsistentAt<T>(isBlocked: (T, int, int) -> bool, onVisible: (T, int, int, real) -> T,
                                           s: T, trace: seq<Event>, i: nat)
    requires Consistent(isBlocked, onVisible, s, trace)
    requires i < |trace| && trace[i].Probe?
    ensures trace[i].blocked == isBlocked(Replay(onVisible, s, trace[..i]), trace[i].x, trace[i].y)
    decreases |trace|
  {
    var prefix := trace[..|trace| - 1];
    if i < |trace| - 1 {
      assert prefix[i] == trace[i] && prefix[..i] == trace[..i];
      ConsistentAt(isBlocked, onVisible, s, prefix, i);
    }
  }

  lemma ReplaySnoc<T>(onVisible: (T, int, int, real) -> T, s: T, trace: seq<Event>, e: Event)
    ensures Replay(onVisible, s, trace + [e]) == Step(onVisible, Replay(onVisible, s, trace), e)
  {
    assert (trace + [e])[..|trace|] == trace;
  }

  /** Replaying a concatenation is replaying the second part from the state the first part leaves. */
  lemma {:induction false} ReplayConcat<T>(onVisible: (T, int, int, real) -> T, s: T, a: seq<Event>, b: seq<Event>)
    ensures Replay(onVisible, s, a + b) == Replay(onVisible, Replay(onVisible, s, a), b)
    decreases |b|
  {
    if b == [] {
      assert a + b == a;
    } else {
      var b' := b[..|b| - 1];
      var e := b[|b| - 1];
      assert a + b == (a + b') + [e];
      assert b == b' + [e];
      ReplayConcat(onVisible, s, a, b');
      ReplaySnoc(onVisible, s, a + b', e);
      ReplaySnoc(onVisible, Replay(onVisible, s, a), b', e);
    }
  }

  /** Appending one event keeps the trace consistent when, if it is a query, it was answered against the current state. */
  lemma ConsistentSnoc<T>(isBlocked: (T, int, int) -> bool, onVisible: (T, int, int, real) -> T,
                          s: T, trace: seq<Event>, e: Event)
    requires Consistent(isBlocked, onVisible, s, trace)
    requires e.Probe? ==> e.blocked == isBlocked(Replay(onVisible, s, trace), e.x, e.y)
    ensures Consistent(isBlocked, onVisible, s, trace + [e])
  {
    assert (trace + [e])[..|trace|] == trace;
  }

  /** Consistency composes: a consistent trace followed by one consistent from the state it leaves. */
  lemma {:induction false} ConsistentConcat<T>(isBlocked: (T, int, int) -> bool, onVisible: (T, int, int, real) -> T,
                                               s: T, a: seq<Event>, b: seq<Event>)
    requires Consistent(isBlocked, onVisible, s, a)
    requires Consistent(isBlocked, onVisible, Replay(onVisible, s, a), b)
    ensures Consistent(isBlocked, onVisible, s, a + b)
    decreases |b|
  {
    if b == [] {
      assert a + b == a;
    } else {
      var b', e := b[..|b| - 1], b[|b| - 1];
      assert b == b' + [e];
      assert a + b == (a + b') + [e];
      assert Consistent(isBlocked, onVisible, Replay(onVisible, s, a), b');
      ConsistentConcat(isBlocked, onVisible, s, a, b');
      ReplayConcat(onVisible, s, a, b');
      ConsistentSnoc(isBlocked, onVisible, s, a + b', e);
    }
  }

  /** With a visibility hook that leaves the state alone, replaying changes nothing. */
  lemma {:induction false} ReplayIdentity<T>(onVisible: (T, int, int, real) -> T, s: T, trace: seq<Event>)
    requires forall s', x, y, d :: onVisible(s', x, y, d) == s'
    ensures Replay(onVisible, s, trace) == s
    decreases |trace|
  {
    if trace != [] {
      ReplayIdentity(onVisible, s, trace[..|trace| - 1]);
    }
  }

  /** Every query recorded in the trace was answered blocked. */
  predicate AnsweredBlocked(trace: seq<Event>)
  {
    forall e <- trace :: e.Probe? ==> e.blocked
  }

  /** Every query recorded in the trace was answered clear. */
  predicate AnsweredClear(trace: seq<Event>)
  {
    forall e <- trace :: e.Probe? ==> !e.blocked
  }

  /** Every emission is followed at once by the oracle query about the same
      cell: no cell is emitted twice before its query, or without one. */
  predicate EmitsBeforeQuery(trace: seq<Event>)
  {
    forall i :: 0 <= i < |trace| && trace[i].Visible? ==>
      i + 1 < |trace| && trace[i + 1].Probe? && trace[i + 1].via == trace[i].via
  }

  lemma EmitsBeforeQueryConcat(a: seq<Event>, b: seq<Event>)
    requires EmitsBeforeQuery(a) && EmitsBeforeQuery(b)
    ensures EmitsBeforeQuery(a + b)
  {
    var t := a + b;
    forall i | 0 <= i < |t| && t[i].Visible?
      ensures i + 1 < |t| && t[i + 1].Probe? && t[i + 1].via == t[i].via
    {
      if i < |a| {
        assert a[i].Visible? && t[i + 1] == a[i + 1];
      } else {
        assert b[i - |a|].Visible? && t[i + 1] == b[i - |a| + 1];
      }
    }
  }

  /** Cell (x, y) was reported visible somewhere in the trace. */
  predicate Seen(trace: seq<Event>, x: int, y: int)
  {
    exists e <- trace :: e.Visible? && e.x == x && e.y == y
  }

  /** Under an oracle that always answers blocked, every query in a consistent trace is recorded blocked. */
  lemma AlwaysBlockedTrace<T>(isBlocked: (T, int, int) -> bool, onVisible: (T, int, int, real) -> T,
                              s: T, trace: seq<Event>)
    requires Consistent(isBlocked, onVisible, s, trace)
    requires forall s', x, y :: isBlocked(s', x, y)
    ensures AnsweredBlocked(trace)
  {
    forall i | 0 <= i < |trace| && trace[i].Probe?
      ensures trace[i].blocked
    {
      ConsistentAt(isBlocked, onVisible, s, trace, i);
    }
  }

  /** The oracle queries of a trace, in the order they were made. */
  function Queries(trace: seq<Event>): (q: seq<Event>)
    ensures |q| <= |trace|
    decreases |trace|
  {
    if trace == [] then []
    else (if trace[0].Probe? then [trace[0]] else []) + Queries(trace[1..])
  }

  /** The queries are exactly the oracle events of the trace. */
  lemma {:induction false} QueriesAreProbes(trace: seq<Event>)
    ensures forall e <- Queries(trace) :: e.Probe? && e in trace
    ensures forall e <- trace :: e.Probe? ==> e in Queries(trace)
    decreases |trace|
  {
    if trace != [] {
      QueriesAreProbes(trace[1..]);
      assert trace == [trace[0]] + trace[1..];
    }
  }

  /** The queries of a concatenation are those of the first part, then those of the second. */
  lemma {:induction false} QueriesConcat(a: seq<Event>, b: seq<Event>)
    ensures Queries(a + b) == Queries(a) + Queries(b)
    decreases |a|
  {
    if a == [] {
      assert a + b == b;
    } else {
      assert (a + b)[0] == a[0] && (a + b)[1..] == a[1..] + b;
      QueriesConcat(a[1..], b);
    }
  }
}
